=== FILE: README.md ===
# MCStats report ingestion, modelled in Dafny

MCStats collects usage statistics from Minecraft servers. Each server runs a
plugin that POSTs a form-encoded report to `/report/<plugin>` (or the older
`/report.php?plugin=<plugin>`) periodically. This project models
the two pieces of the collector that turn such a report into stored data:

- `ReportHandler` reads the plugin name from the URI and parses the body into
  a field map. It checks the required fields and applies the anti-abuse
  check: violation count, blacklist and the threshold of 7. It then
  reconciles the plugin and server versions, updates the server record only
  where the report differs from it, and counts plugin starts. Finally it
  writes the custom metrics as upserted rows and answers with
  `OK This is your first update this hour.` or `OK`, depending on the
  half-hour bucket.
- `LegacyRequestDecoder` reads the same body into a decoded request. It
  clamps the player count, reads the revision-6 environment block (OS, Java
  version split, cores, online mode) and extracts the custom metrics.

The modules follow that structure:

| module | file | what it holds |
|---|---|---|
| `Optional` | optional.dfy | `Option`, for Java's `null` |
| `Assoc` | assoc.dfy | `HashMap` as an association list with distinct keys |
| `JavaText` | java_text.dfy | `String.split` with a literal delimiter, `indexOf`, character replacement |
| `JavaNumbers` | java_numbers.dfy | `Integer.parseInt`, `Boolean.parseBoolean`, truncating `int` division |
| `FormBody` | form_body.dfy | `processPostRequest` and the required-field check |
| `CustomData` | custom_data.dfy | both key schemes of custom metrics, in both readers |
| `Decoder` | decoder.dfy | `LegacyRequestDecoder.decode` |
| `Entities` | entities.dfy | server, plugin, server-plugin and plugin-version records |
| `Violations` | violations.dfy | the violation and blacklist check |
| `Interval` | interval.dfy | `normalizeTime` and the end-of-request interval bookkeeping |
| `WritePlan` | write_plan.dfy | the custom-data rows and `INSERT … ON DUPLICATE KEY UPDATE` |
| `Handler` | handler.dfy | `ReportHandler.handle` from URI and body to outcome |

Effects are modelled as values:

- The database is a `Backend` record of total lookup functions.
- `URLUtils.decode` is a parameter `dec`.
- The GeoIP header is an `Option<string>`.
- The clock is one integer `now`, in seconds.
- A request's effect is an `Outcome`. It holds the reply line, the records
  as the handler leaves them, the custom-data rows it writes, whether a
  blacklisting was stored and whether the records were saved.
- Every record has a `modified` flag, as the source's setters do. So a
  contract can say which records a request actually changes.

Where the code and its own documentation disagree, the model follows the code:

- `normalizeTime` is documented as rounding "to the nearest graphing
  period". The code computes `(now - 900) / 1800 * 1800` with truncating
  division, and `Math.round` is handed an integer that is already rounded.
  So the bucket is the last multiple of 1800 at or below `now - 900`, not
  the nearest one. `Interval.Bucket` states exactly that.
- The two readers are not interchangeable, and the model keeps each as
  written:
  - The decoder's current scheme needs a key starting with `C` and an active
    graph (`active != 0`); the handler's needs neither
    (`CustomData.CurrentResolversDiffer`).
  - The decoder clamps the player count to `[0, 2000]`. The handler stores
    any non-negative count and ignores a negative one
    (`Handler.PlayerPoliciesDiffer`).
  - The handler writes custom data only from revision 4 on.
- In the decoder, a `java_version` that starts with `1.`, is longer than 3
  UTF-16 units (Java's `length()`, in which a character outside the Basic
  Multilingual Plane counts twice) and has no second dot makes `substring`
  throw. This is the
  `IndexOutOfBounds` outcome of `Decoder.DecodeFields`; the input `1.80` is
  one such value (`Decoder.JavaFieldsExamples`).

## Model

Source paths are relative to the repository root.

| member | source | states |
|---|---|---|
| JavaText.Split | src/main/java/org/mcstats/handler/ReportHandler.java:405-410 | the result of `String.split` is exactly the whole input when the delimiter does not occur; otherwise it is the delimiter-separated pieces, cut back to a prefix that does not end in an empty string, and every piece dropped is empty |
| JavaText.JoinPieces | src/main/java/org/mcstats/handler/ReportHandler.java:405-407 | the pieces between leftmost delimiter occurrences, rejoined with the delimiter, give back the input |
| JavaText.PiecesOfJoin | src/main/java/org/mcstats/handler/ReportHandler.java:405-407 | pieces free of the delimiter's first character, joined and split again, come back unchanged |
| JavaText.SplitJoin | src/main/java/org/mcstats/handler/ReportHandler.java:405-410 | `split` loses only trailing delimiters: the input is the join of the result followed by exactly the dropped delimiters |
| JavaText.Utf16Length | src/main/java/org/mcstats/decoder/LegacyRequestDecoder.java:80 | `length()` is at least the number of characters and at most twice it, equals it exactly when every character lies in the Basic Multilingual Plane, and is 1 or 2 for a single character inside or outside that plane |
| JavaText.Utf16LengthAppend | src/main/java/org/mcstats/decoder/LegacyRequestDecoder.java:80 | `length()` adds up over concatenation; with the one-character case of `Utf16Length` (1 inside the Basic Multilingual Plane, 2 outside) this fixes the count of every string |
| JavaText.IndexOf | src/main/java/org/mcstats/decoder/LegacyRequestDecoder.java:81 | `indexOf(c, from)` is -1 or the first position at or after `from` holding `c` |
| JavaText.ReplaceCharUndo | src/main/java/org/mcstats/handler/ReportHandler.java:356 | `replaceAll` of one character by another that did not occur is undone by replacing back, so no character but the replaced one changes |
| JavaNumbers.ParseInt | src/main/java/org/mcstats/handler/ReportHandler.java:96-104 | `Integer.parseInt` succeeds exactly on an optional sign followed by digits whose value fits in 32 bits, and then returns the value of that signed decimal numeral (leading zeros and `+` included) |
| JavaNumbers.ParseFormat | src/main/java/org/mcstats/handler/ReportHandler.java:96-98 | every 32-bit integer written in decimal parses back to itself |
| JavaNumbers.ParseBoolean | src/main/java/org/mcstats/decoder/LegacyRequestDecoder.java:87 | `Boolean.parseBoolean` is true exactly for a non-null string whose lower-cased form is `true` |
| JavaNumbers.ParseBooleanExamples | src/main/java/org/mcstats/decoder/LegacyRequestDecoder.java:87 | `True` reads as true, `abcd` and `null` as false |
| JavaNumbers.JavaDiv | src/main/java/org/mcstats/handler/ReportHandler.java:265 | Java `int` division truncates toward zero for both signs of the dividend |
| Assoc.Get | src/main/java/org/mcstats/handler/ReportHandler.java:78-91 | `get` finds a value exactly when `containsKey` holds, and the found pair is in the map |
| Assoc.Put | src/main/java/org/mcstats/handler/ReportHandler.java:419 | `put` makes the key map to the new value, leaves every other key alone and adds the key to the key set |
| Assoc.PutAbsent | src/main/java/org/mcstats/handler/ReportHandler.java:419 | putting a new key appends it after the existing entries |
| FormBody.Field | src/main/java/org/mcstats/handler/ReportHandler.java:407-416 | an entry yields a decoded key/value pair exactly when splitting it on `=` gives two parts |
| FormBody.ParseEntries | src/main/java/org/mcstats/handler/ReportHandler.java:405-420 | the map holds exactly the keys of kept entries, and each key holds the value of its last kept entry |
| FormBody.ParseBody | src/main/java/org/mcstats/handler/ReportHandler.java:401-423 | `processPostRequest` stores exactly the kept keys, and the last entry for a key wins |
| FormBody.EntryKept | src/main/java/org/mcstats/handler/ReportHandler.java:407-412 | `k=v` with a non-empty value and no other `=` splits into exactly `k` and `v` |
| FormBody.EntryWithoutValueDropped | src/main/java/org/mcstats/handler/ReportHandler.java:407-412 | `k=` with an empty value yields fewer than two parts and is dropped |
| FormBody.EntryWithTwoSeparatorsDropped | src/main/java/org/mcstats/handler/ReportHandler.java:407-412 | `a=b=c` with a non-empty `c` yields three parts and is dropped |
| FormBody.EntryWithTrailingSeparatorKept | src/main/java/org/mcstats/handler/ReportHandler.java:407-412 | `a=b=` still yields `[a, b]` and is kept, because the trailing empty part is discarded |
| FormBody.EntryShape | src/main/java/org/mcstats/handler/ReportHandler.java:407-412 | a kept entry is `key=value` with a non-empty value and nothing but `=` after it |
| FormBody.SplitEncoded | src/main/java/org/mcstats/handler/ReportHandler.java:405 | a body encoded from plain fields splits on `&` into exactly its entries |
| FormBody.ParseEncoded | src/main/java/org/mcstats/handler/ReportHandler.java:401-423 | parsing an encoded body yields exactly the decoded keys, each holding the decoded value of its last occurrence |
| FormBody.IntField | src/main/java/org/mcstats/handler/ReportHandler.java:96-104 | an optional number is exactly its default when absent, and exactly `Integer.parseInt` of the value when present, failing when that is not an `int` |
| CustomData.MetricKey | src/main/java/org/mcstats/handler/ReportHandler.java:295-303 | a key names a graph and a column exactly when splitting on `~~` gives three parts |
| CustomData.MetricKeyOfJoin | src/main/java/org/mcstats/handler/ReportHandler.java:295-303 | `marker~~graph~~column` without `~` in the parts and with a non-empty column gives back graph and column |
| CustomData.HandlerCurrent | src/main/java/org/mcstats/handler/ReportHandler.java:283-317 | a field resolves exactly when its value is an `int`, its key has three parts, the graph exists and the column exists; it then yields that column and value |
| CustomData.DecoderCurrent | src/main/java/org/mcstats/decoder/LegacyRequestDecoder.java:135-157 | a field resolves only for a key starting with `C`, an `int` value, a three-part key and an active graph |
| CustomData.ActiveOnly | src/main/java/org/mcstats/decoder/LegacyRequestDecoder.java:151-152 | the filtered lookup finds a graph exactly when it exists and is active |
| CustomData.CurrentResolversDiffer | src/main/java/org/mcstats/decoder/LegacyRequestDecoder.java:135-157 | the decoder's resolver is the handler's restricted to `C` keys and active graphs |
| CustomData.LegacyColumnName | src/main/java/org/mcstats/handler/ReportHandler.java:356 | the legacy column name is the key after `Custom`, character by character, with each underscore turned into a space and every other character kept |
| CustomData.LegacyColumnNameExample | src/main/java/org/mcstats/handler/ReportHandler.java:356 | `CustomPlayers_Online` names the column `Players Online` |
| CustomData.HandlerLegacy | src/main/java/org/mcstats/handler/ReportHandler.java:342-367 | a legacy field resolves exactly when its value is an `int`, its key starts with `Custom`, the default graph exists and the column exists |
| CustomData.DecoderLegacy | src/main/java/org/mcstats/decoder/LegacyRequestDecoder.java:179-197 | the decoder's legacy resolver only accepts `Custom` keys |
| CustomData.LegacyResolversAgree | src/main/java/org/mcstats/decoder/LegacyRequestDecoder.java:179-197 | the decoder's extra `C` test is redundant: both legacy resolvers agree on every field |
| CustomData.Extract | src/main/java/org/mcstats/handler/ReportHandler.java:276-320 | the resolved map has distinct columns, holds exactly the columns some field resolves to, and every stored pair is what some field resolves to |
| CustomData.ExtractSkips | src/main/java/org/mcstats/handler/ReportHandler.java:285-310 | a field that does not resolve changes nothing |
| CustomData.ExtractEmpty | src/main/java/org/mcstats/handler/ReportHandler.java:200 | the resolved map is empty exactly when no field resolves |
| CustomData.ExtractMonotone | src/main/java/org/mcstats/decoder/LegacyRequestDecoder.java:135-157 | a stricter resolver never yields more columns |
| CustomData.DecoderCustomData | src/main/java/org/mcstats/decoder/LegacyRequestDecoder.java:95-99 | revision 5 and later use the current scheme, earlier revisions the legacy scheme on graph `Default` |
| CustomData.HandlerCustomData | src/main/java/org/mcstats/handler/ReportHandler.java:194-198 | the same selection with the handler's resolvers |
| CustomData.DecoderColumnsWithinHandler | src/main/java/org/mcstats/decoder/LegacyRequestDecoder.java:95-99 | every column the decoder extracts, the handler extracts too |
| CustomData.CurrentSchemeExample | src/main/java/org/mcstats/decoder/LegacyRequestDecoder.java:146-157 | `C~~Players~~Total=42` stores 42 under the column on an active graph and nothing on an inactive one |
| Decoder.ClampPlayers | src/main/java/org/mcstats/decoder/LegacyRequestDecoder.java:61-63 | the player count lies in `[0, 2000]`, is kept when it already does, and becomes 0 otherwise |
| Decoder.SplitJavaVersion | src/main/java/org/mcstats/decoder/LegacyRequestDecoder.java:80-83 | a `1.x` version splits at its second dot into a name without further dots and the rest, and fails when there is no second dot |
| Decoder.SplitJavaVersionOfJoin | src/main/java/org/mcstats/decoder/LegacyRequestDecoder.java:80-83 | a name and rest joined by a dot split back into the same name and rest |
| Decoder.JavaFields | src/main/java/org/mcstats/decoder/LegacyRequestDecoder.java:69-83 | an absent version gives `("", "Unknown")` and a failure happens exactly when the split throws; the name is non-empty exactly for a `1.`-prefixed value longer than three UTF-16 units, and is then `1.X` with no further dot, the two parts rebuilding the value; otherwise the value is kept whole |
| Decoder.JavaFieldsExamples | src/main/java/org/mcstats/decoder/LegacyRequestDecoder.java:80-83 | `1.8.0_211` gives `1.8` and `0_211`, `17` is kept whole, and `1.80` throws |
| Decoder.JavaFieldsSurrogates | src/main/java/org/mcstats/decoder/LegacyRequestDecoder.java:80-81 | `1.` followed by one supplementary character is four UTF-16 units long and throws; `1.` followed by `é` is three units long and is kept whole |
| Decoder.CoresAndAuth | src/main/java/org/mcstats/decoder/LegacyRequestDecoder.java:84-92 | auth mode is -1 with 0 cores exactly when `cores` is missing or not an `int`, and otherwise 1 or 0 as `online-mode` is true |
| Decoder.DecodeEnvironment | src/main/java/org/mcstats/decoder/LegacyRequestDecoder.java:65-92 | the environment fails exactly when the Java split throws; the OS name and version default to `Unknown` |
| Decoder.DecodeFields | src/main/java/org/mcstats/decoder/LegacyRequestDecoder.java:40-101 | a request is rejected exactly when a required field is missing or a number is malformed, and throws exactly at revision 6 and later with a throwing Java version; otherwise it carries the fields as read, with the revision-4 and zero-player defaults, and from revision 6 on the environment block read from the form |
| Decoder.Decode | src/main/java/org/mcstats/decoder/LegacyRequestDecoder.java:28-102 | a body is rejected exactly when its parsed form is refused, and a decoded player count is within `[0, 2000]` |
| Decoder.DecodeFieldsAgree | src/main/java/org/mcstats/decoder/LegacyRequestDecoder.java:40-99 | two forms that agree on every key the decoder reads decode alike |
| Decoder.RevisionDefaultsToFour | src/main/java/org/mcstats/decoder/LegacyRequestDecoder.java:51 | a form without `revision` decodes exactly as the same form with `revision=4` appended, fields kept in order of first appearance |
| Violations.CheckViolations | src/main/java/org/mcstats/handler/ReportHandler.java:121-136 | a report is refused exactly when the server is blacklisted or listed below the threshold; at or above 7 violations it is admitted and blacklisted; the count never decreases |
| Violations.BlacklistTakesEffectNextReport | src/main/java/org/mcstats/handler/ReportHandler.java:127-136 | a server blacklisted while admitted is refused on its next report |
| Violations.ThresholdAdmitsOnce | src/main/java/org/mcstats/handler/ReportHandler.java:133-136 | at exactly 7 violations a not yet blacklisted server is admitted and blacklisted |
| Interval.Bucket | src/main/java/org/mcstats/handler/ReportHandler.java:255-266 | the bucket is a multiple of 1800 and, past 900 seconds, the last one at or below `now - 900`; it never exceeds a non-negative `now` |
| Interval.BucketMonotone | src/main/java/org/mcstats/handler/ReportHandler.java:255-266 | buckets never go back as the clock advances |
| Interval.CloseInterval | src/main/java/org/mcstats/handler/ReportHandler.java:230-241 | the first-update line appears exactly when the bucket is newer than the last update, and then resets the violation count; the last update becomes `now` |
| Interval.SameSecondIsOk | src/main/java/org/mcstats/handler/ReportHandler.java:230-241 | a second report in the same second gets `OK` |
| Interval.SameBucketIsOk | src/main/java/org/mcstats/handler/ReportHandler.java:230-241 | a later report in the same bucket gets `OK` |
| WritePlan.Plan | src/main/java/org/mcstats/handler/ReportHandler.java:200-212 | one row per resolved column, with distinct columns, the resolved value and the same timestamp |
| WritePlan.UpsertOverrides | src/main/java/org/mcstats/handler/ReportHandler.java:218 | the upsert only adds or overwrites rows |
| WritePlan.UpsertIdempotent | src/main/java/org/mcstats/handler/ReportHandler.java:218 | upserting the same rows twice leaves the table as upserting them once |
| WritePlan.UpsertDistinct | src/main/java/org/mcstats/handler/ReportHandler.java:206-218 | with distinct keys, each row's key holds that row and every other key keeps its old value |
| WritePlan.ApplyPlan | src/main/java/org/mcstats/handler/ReportHandler.java:200-221 | after the write, each resolved column of the server and plugin holds its value and `now`, and no other row changes |
| Handler.PluginName | src/main/java/org/mcstats/handler/ReportHandler.java:379-393 | a name exists exactly for URIs under the two report paths and is the rest of the URI |
| Handler.PluginNameOfPath | src/main/java/org/mcstats/handler/ReportHandler.java:379-393 | either report path followed by a name yields that name |
| Handler.ValidateReport | src/main/java/org/mcstats/handler/ReportHandler.java:78-111 | a form is refused exactly when a required field is missing or a number is malformed; revision defaults to 4 and players to 0 |
| Handler.ValidationAgreesWithDecoder | src/main/java/org/mcstats/handler/ReportHandler.java:78-111 | the handler refuses exactly what the decoder rejects, and both read the same fields, apart from the decoder's clamp |
| Handler.ReconcileVersions | src/main/java/org/mcstats/handler/ReportHandler.java:157-171 | the server-plugin record takes the reported version; history grows by the known version only when the version changed and the server had reported before |
| Handler.UpdateServer | src/main/java/org/mcstats/handler/ReportHandler.java:172-181 | server version, non-negative players and a non-empty country code are taken from the report, and the record is flagged exactly when one of them differs |
| Handler.UpdateServerSettles | src/main/java/org/mcstats/handler/ReportHandler.java:172-181 | once saved, the same report changes nothing and flags nothing |
| Handler.CountHit | src/main/java/org/mcstats/handler/ReportHandler.java:184-187 | global hits grow by one exactly when the report is not a ping |
| Handler.CustomPlan | src/main/java/org/mcstats/handler/ReportHandler.java:189-222 | below revision 4 nothing is written; otherwise one row per resolved column, stamped with the server, the plugin and `now` |
| Handler.Complete | src/main/java/org/mcstats/handler/ReportHandler.java:157-247 | a loaded request is saved with the reported versions, players and country, the hit count, the interval line and its violation reset, and the custom-data rows |
| Handler.Process | src/main/java/org/mcstats/handler/ReportHandler.java:113-155 | the blacklist line appears exactly when the violation check refuses, the error line exactly when the server-plugin record is missing, and only otherwise are records saved and rows written |
| Handler.HandleForm | src/main/java/org/mcstats/handler/ReportHandler.java:77-187 | a refused form gets the invalid-arguments line and touches nothing; a saved request counts a hit exactly when `ping` is absent |
| Handler.Handle | src/main/java/org/mcstats/handler/ReportHandler.java:42-248 | the invalid-arguments line appears exactly for a URI without a plugin name or a refused form, and then nothing is loaded or written |
| Handler.SecondReportIsOk | src/main/java/org/mcstats/handler/ReportHandler.java:230-241 | any second report in the same second gets `OK` |
| Handler.RepeatedReportSameData | src/main/java/org/mcstats/handler/ReportHandler.java:200-221 | the same report twice writes the same rows, and the table ends as after the first write |
| Handler.PlayerPoliciesDiffer | src/main/java/org/mcstats/handler/ReportHandler.java:175-177 | above 2000 players the handler stores the count while the decoder reports 0 |

## Left out

- HTTP plumbing is not modelled: the POST-method check, reading the body line by line, the response status and content type. The body is the string the line reads concatenate to.
- `URLUtils.decode` is not part of this model; it is the parameter `dec`.
- Database access and `save()` are not modelled. Lookups are the total functions of `Backend`, saving is the `saved` flag of `Outcome`, and the custom-data write is the list of rows.
- The `plugin == null || server == null` test of `ReportHandler` is not modelled. The loaders are total, and that test follows uses of `server` that would already have thrown.
- Handler.PluginName: the URI is taken as the string the handler receives. `getRequestURI()` carries no query string, so in a deployed server the `?plugin=` form reaches the handler only if the container hands it over unstripped.
- Concurrent requests are not modelled: the model handles one request at a time, so interleaved read-modify-write of the violation count, the global hit counter and the interval reset for the same server is left out.
- The three clock reads of `handle` are one value `now`. The truncation of milliseconds to an `int` second is not modelled.
- JavaText.IndexOf: positions count characters, not UTF-16 units as Java's do. The Java-version split cuts only at an ASCII dot, so the strings it produces are the same either way.
- JavaNumbers.ParseInt: `Integer.parseInt` is modelled for ASCII digits only; other Unicode decimal digits, which Java also accepts, are left out.
- Handler.CountHit: does not model the 32-bit wrap-around of `globalHits + 1`, because the counter is far from the `int` limit.
- CustomData.Extract: when two fields resolve to the same column, the contract says only that the stored value is one of theirs, because `HashMap` iteration order decides the winner in the source.
- CustomData.HandlerCustomData: the same weakening as `CustomData.Extract`, for the same reason.
- CustomData.DecoderCustomData: the same weakening as `CustomData.Extract`, for the same reason.
- Decoder.RevisionDefaultsToFour: the equality rests on the model's form keeping fields in order of first appearance. In the source, adding `revision` can resize the `HashMap` and reverse the iteration order of two other fields that resolve to the same legacy column (for example `CustomA_B` and `CustomA B`), so the source may keep the other value there.
- `loadPluginVersion` is called only when the version changed and the server had reported before; the model reads it unconditionally, as a lookup without side effects.
- Whether `addVersionHistory` raises the server's `modified` flag is not visible here: that server class is not part of this model. The model leaves the flag as it was.
- The decoder's `Long` custom-data values are modelled as the `int` values they are parsed from.

=== FILE: assoc.dfy ===
/**
  Association lists with distinct keys: the model of a Java `HashMap`.
  `Put` replaces the value of a key already present in place and appends a new
  key at the end, so the list is also an iteration order of the map.
 */
module Assoc {
  import opened Optional

  /** No key occurs twice. */
  predicate DistinctKeys<K(==), V>(a: seq<(K, V)>) {
    forall i, j :: 0 <= i < j < |a| ==> a[i].0 != a[j].0
  }

  /** The set of keys of `a`. */
  function Keys<K, V>(a: seq<(K, V)>): set<K> {
    set i | 0 <= i < |a| :: a[i].0
  }

  lemma KeysCons<K, V>(x: (K, V), a: seq<(K, V)>)
    ensures Keys([x] + a) == {x.0} + Keys(a)
  {
    var r := [x] + a;
    assert r[0].0 == x.0;
    forall y | y in Keys(r) ensures y in {x.0} + Keys(a) {
      var i :| 0 <= i < |r| && r[i].0 == y;
      if i > 0 { assert a[i - 1].0 == y; }
    }
    forall y | y in Keys(a) ensures y in Keys(r) {
      var i :| 0 <= i < |a| && a[i].0 == y;
      assert r[i + 1].0 == y;
    }
  }

  /** The value of the first entry whose key is `k` (`HashMap.get`). */
  function Get<K(==), V>(a: seq<(K, V)>, k: K): (r: Option<V>)
    ensures r.Some? <==> k in Keys(a)
    ensures r.Some? ==> (k, r.value) in a
    decreases |a|
  {
    if |a| == 0 then None
    else if a[0].0 == k then Some(a[0].1)
    else
      KeysCons(a[0], a[1..]);
      assert [a[0]] + a[1..] == a;
      Get(a[1..], k)
  }

  /** In a list with distinct keys, every entry is what `Get` finds for its key. */
  lemma {:induction false} GetEntry<K, V>(a: seq<(K, V)>, i: int)
    requires DistinctKeys(a)
    requires 0 <= i < |a|
    ensures Get(a, a[i].0) == Some(a[i].1)
    decreases |a|
  {
    if i > 0 {
      assert a[0].0 != a[i].0;
      GetEntry(a[1..], i - 1);
    }
  }

  lemma DistinctCons<K, V>(x: (K, V), a: seq<(K, V)>)
    ensures DistinctKeys([x] + a) <==> x.0 !in Keys(a) && DistinctKeys(a)
  {
    var r := [x] + a;
    if DistinctKeys(r) {
      forall i, j | 0 <= i < j < |a| ensures a[i].0 != a[j].0 {
        assert r[i + 1] == a[i] && r[j + 1] == a[j];
      }
      forall i | 0 <= i < |a| ensures a[i].0 != x.0 {
        assert r[i + 1] == a[i] && r[0] == x;
      }
    }
    if x.0 !in Keys(a) && DistinctKeys(a) {
      forall i, j | 0 <= i < j < |r| ensures r[i].0 != r[j].0 {
        if i == 0 {
          assert r[j].0 in Keys(a) by { assert a[j - 1] == r[j]; }
        } else {
          assert r[i] == a[i - 1] && r[j] == a[j - 1];
        }
      }
    }
  }

  /**
    `HashMap.put`: afterwards `k` maps to `v`, every other key keeps its value,
    and keys stay distinct.
   */
  function Put<K(==,!new), V>(a: seq<(K, V)>, k: K, v: V): (r: seq<(K, V)>)
    ensures Get(r, k) == Some(v)
    ensures forall x :: x != k ==> Get(r, x) == Get(a, x)
    ensures Keys(r) == Keys(a) + {k}
    ensures DistinctKeys(a) ==> DistinctKeys(r)
    ensures |r| == if k in Keys(a) then |a| else |a| + 1
    ensures forall x :: x in r ==> x == (k, v) || x in a
    decreases |a|
  {
    if |a| == 0 then [(k, v)]
    else if a[0].0 == k then
      PutHere(a, k, v);
      [(k, v)] + a[1..]
    else
      var rest := Put(a[1..], k, v);
      PutFurtherGet(a, k, v, rest);
      PutFurtherKeys(a, k, rest);
      [a[0]] + rest
  }

  /** `put` on the first key replaces that entry. */
  lemma PutHere<K(!new), V>(a: seq<(K, V)>, k: K, v: V)
    requires |a| > 0 && a[0].0 == k
    ensures var r := [(k, v)] + a[1..];
      && Get(r, k) == Some(v)
      && (forall x :: x != k ==> Get(r, x) == Get(a, x))
      && Keys(r) == Keys(a) + {k}
      && (DistinctKeys(a) ==> DistinctKeys(r))
      && |r| == |a| && k in Keys(a)
      && (forall x :: x in r ==> x == (k, v) || x in a)
  {
    KeysCons(a[0], a[1..]);
    KeysCons((k, v), a[1..]);
    DistinctCons(a[0], a[1..]);
    DistinctCons((k, v), a[1..]);
    assert [a[0]] + a[1..] == a;
  }

  /** `put` past a different first key: lookups carry over from the rest. */
  lemma PutFurtherGet<K(!new), V>(a: seq<(K, V)>, k: K, v: V, rest: seq<(K, V)>)
    requires |a| > 0 && a[0].0 != k
    requires Get(rest, k) == Some(v)
    requires forall x :: x != k ==> Get(rest, x) == Get(a[1..], x)
    requires forall x :: x in rest ==> x == (k, v) || x in a[1..]
    ensures var r := [a[0]] + rest;
      && Get(r, k) == Some(v)
      && (forall x :: x != k ==> Get(r, x) == Get(a, x))
      && (forall x :: x in r ==> x == (k, v) || x in a)
  {
    var r := [a[0]] + rest;
    assert r[0] == a[0] && r[1..] == rest;
    assert Get(r, k) == Get(rest, k);
    forall x | x != k ensures Get(r, x) == Get(a, x) {
      if x != a[0].0 {
        assert Get(r, x) == Get(rest, x);
      }
    }
    forall x | x in r ensures x == (k, v) || x in a {
      if x != a[0] {
        assert x in rest;
      }
    }
  }

  /** `put` past a different first key: the key set, distinctness and length carry over. */
  lemma PutFurtherKeys<K(!new), V>(a: seq<(K, V)>, k: K, rest: seq<(K, V)>)
    requires |a| > 0 && a[0].0 != k
    requires Keys(rest) == Keys(a[1..]) + {k}
    requires DistinctKeys(a[1..]) ==> DistinctKeys(rest)
    requires |rest| == if k in Keys(a[1..]) then |a| - 1 else |a|
    ensures var r := [a[0]] + rest;
      && Keys(r) == Keys(a) + {k}
      && (DistinctKeys(a) ==> DistinctKeys(r))
      && |r| == if k in Keys(a) then |a| else |a| + 1
  {
    KeysCons(a[0], a[1..]);
    KeysCons(a[0], rest);
    DistinctCons(a[0], a[1..]);
    DistinctCons(a[0], rest);
    assert [a[0]] + a[1..] == a;
  }

  /** A key not yet present is appended at the end. */
  lemma {:induction false} PutAbsent<K(!new), V>(a: seq<(K, V)>, k: K, v: V)
    requires k !in Keys(a)
    ensures Put(a, k, v) == a + [(k, v)]
    decreases |a|
  {
    if |a| > 0 {
      assert a[0].0 in Keys(a);
      KeysCons(a[0], a[1..]);
      assert [a[0]] + a[1..] == a;
      PutAbsent(a[1..], k, v);
    }
  }
}

=== FILE: custom_data.dfy ===
/**
  Custom metrics carried in a report, in the two key schemes the collector
  understands, as each of its two request readers extracts them.

  Current scheme (revision 5 and later): a key `marker~~graph~~column` whose
  value is an `int`. Legacy scheme: a key `Custom<name>` whose value is an
  `int`, on the graph `Default`, with every `_` of the name read as a space.

  The graph and column repositories are the parameters `loadGraph` and
  `loadColumn`. Resolved data maps each column to one value; when two fields
  resolve to the same column the contracts only promise that the stored value
  is one of theirs, since the source's `HashMap` order decides the winner.
 */
module CustomData {
  import opened Optional
  import opened Assoc
  import opened JavaText
  import opened JavaNumbers
  import opened FormBody

  /** A graph as the repository returns it; `active` is 0 for a disabled graph. */
  datatype Graph = Graph(id: int, name: string, active: int)

  type ColumnId = int

  /** Resolved custom data: distinct columns, each with its value. */
  type Metrics = seq<(ColumnId, int)>

  const Separator: string := "~~"
  const LegacyPrefix: string := "Custom"
  const DefaultGraph: string := "Default"

  /** The graph and column names of a current-scheme key, whose `~~`-split has exactly three parts. */
  function MetricKey(key: string): (r: Option<(string, string)>)
    ensures r.Some? <==> |Split(key, Separator)| == 3
  {
    var parts := Split(key, Separator);
    if |parts| == 3 then Some((parts[1], parts[2])) else None
  }

  /** Round trip: `marker~~graph~~column` gives back its graph and column names. */
  lemma MetricKeyOfJoin(marker: string, graph: string, column: string)
    requires '~' !in marker && '~' !in graph && '~' !in column && column != ""
    ensures MetricKey(marker + "~~" + graph + "~~" + column) == Some((graph, column))
  {
    assert [marker, graph, column][1..] == [graph, column];
    assert [graph, column][1..] == [column];
    assert Join([graph, column], Separator) == graph + "~~" + column;
    assert Join([marker, graph, column], Separator) == marker + "~~" + graph + "~~" + column;
    PiecesOfJoin([marker, graph, column], Separator);
  }

  /** `ReportHandler.extractCustomData` for one field: no marker check and no active check. */
  function HandlerCurrent(field: (string, string), loadGraph: string -> Option<Graph>,
                          loadColumn: (Graph, string) -> Option<ColumnId>): (r: Option<(ColumnId, int)>)
    ensures r.Some? ==> ParseInt(field.1) == Some(r.value.1)
    ensures r.Some? <==>
      && ParseInt(field.1).Some?
      && MetricKey(field.0).Some?
      && loadGraph(MetricKey(field.0).value.0).Some?
      && loadColumn(loadGraph(MetricKey(field.0).value.0).value, MetricKey(field.0).value.1).Some?
    ensures r.Some? ==>
      loadColumn(loadGraph(MetricKey(field.0).value.0).value, MetricKey(field.0).value.1) == Some(r.value.0)
  {
    match ParseInt(field.1)
    case None => None
    case Some(value) =>
      match MetricKey(field.0)
      case None => None
      case Some(names) =>
        match loadGraph(names.0)
        case None => None
        case Some(graph) =>
          match loadColumn(graph, names.1)
          case None => None
          case Some(column) => Some((column, value))
  }

  /**
    `LegacyRequestDecoder.extractCustomData` for one field: the key must also
    start with `C` and the graph must be active.
   */
  function DecoderCurrent(field: (string, string), loadGraph: string -> Option<Graph>,
                          loadColumn: (Graph, string) -> Option<ColumnId>): (r: Option<(ColumnId, int)>)
    ensures r.Some? ==> StartsWith(field.0, "C") && ParseInt(field.1) == Some(r.value.1)
    ensures r.Some? ==>
      && MetricKey(field.0).Some?
      && loadGraph(MetricKey(field.0).value.0).Some?
      && loadGraph(MetricKey(field.0).value.0).value.active != 0
  {
    if !StartsWith(field.0, "C") then None
    else
      match ParseInt(field.1)
      case None => None
      case Some(value) =>
        match MetricKey(field.0)
        case None => None
        case Some(names) =>
          match loadGraph(names.0)
          case None => None
          case Some(graph) =>
            if graph.active == 0 then None
            else
              match loadColumn(graph, names.1)
              case None => None
              case Some(column) => Some((column, value))
  }

  /** The graph repository with inactive graphs hidden. */
  function ActiveOnly(loadGraph: string -> Option<Graph>): (r: string -> Option<Graph>)
    ensures forall name :: r(name).Some? <==> loadGraph(name).Some? && loadGraph(name).value.active != 0
  {
    name => match loadGraph(name)
            case Some(g) => if g.active != 0 then Some(g) else None
            case None => None
  }

  /**
    The two current-scheme readers differ exactly by the decoder's `C` marker
    check and its active-graph check.
   */
  lemma CurrentResolversDiffer(field: (string, string), loadGraph: string -> Option<Graph>,
                               loadColumn: (Graph, string) -> Option<ColumnId>)
    ensures DecoderCurrent(field, loadGraph, loadColumn) ==
      if StartsWith(field.0, "C") then HandlerCurrent(field, ActiveOnly(loadGraph), loadColumn) else None
  {
  }

  /** The column name of a legacy key: what follows `Custom`, with `_` read as a space. */
  function LegacyColumnName(key: string): (name: string)
    requires StartsWith(key, LegacyPrefix)
    ensures |name| == |key| - |LegacyPrefix|
    ensures '_' !in name
    ensures forall i :: 0 <= i < |name| && key[|LegacyPrefix| + i] != '_' ==> name[i] == key[|LegacyPrefix| + i]
    ensures forall i :: 0 <= i < |name| && key[|LegacyPrefix| + i] == '_' ==> name[i] == ' '
  {
    ReplaceChar(key[|LegacyPrefix|..], '_', ' ')
  }

  /** `CustomPlayers_Online` names the column `Players Online`. */
  lemma LegacyColumnNameExample()
    ensures LegacyColumnName("CustomPlayers_Online") == "Players Online"
  {
    var name := LegacyColumnName("CustomPlayers_Online");
    assert "CustomPlayers_Online"[6..] == "Players_Online";
    assert name == ReplaceChar("Players_Online", '_', ' ');
    assert |name| == |"Players Online"|;
    forall i | 0 <= i < |name| ensures name[i] == "Players Online"[i] {
    }
  }

  /** `ReportHandler.extractCustomDataLegacy` for one field, with the `Default` graph looked up once. */
  function HandlerLegacy(field: (string, string), graph: Option<Graph>,
                         loadColumn: (Graph, string) -> Option<ColumnId>): (r: Option<(ColumnId, int)>)
    ensures r.Some? <==>
      && ParseInt(field.1).Some?
      && StartsWith(field.0, LegacyPrefix)
      && graph.Some?
      && loadColumn(graph.value, LegacyColumnName(field.0)).Some?
    ensures r.Some? ==>
      r.value == (loadColumn(graph.value, LegacyColumnName(field.0)).value, ParseInt(field.1).value)
  {
    match ParseInt(field.1)
    case None => None
    case Some(value) =>
      if !StartsWith(field.0, LegacyPrefix) then None
      else
        match graph
        case None => None
        case Some(g) =>
          match loadColumn(g, LegacyColumnName(field.0))
          case None => None
          case Some(column) => Some((column, value))
  }

  /** `LegacyRequestDecoder.extractCustomDataLegacy` for one field: a redundant `C` check first. */
  function DecoderLegacy(field: (string, string), graph: Option<Graph>,
                         loadColumn: (Graph, string) -> Option<ColumnId>): (r: Option<(ColumnId, int)>)
    ensures r.Some? ==> StartsWith(field.0, LegacyPrefix)
  {
    if !StartsWith(field.0, "C") then None
    else
      match ParseInt(field.1)
      case None => None
      case Some(value) =>
        if StartsWith(field.0, LegacyPrefix) then
          match graph
          case None => None
          case Some(g) =>
            match loadColumn(g, LegacyColumnName(field.0))
            case None => None
            case Some(column) => Some((column, value))
        else None
  }

  /** The decoder's extra `C` check is implied by `Custom`: both legacy readers agree. */
  lemma LegacyResolversAgree(field: (string, string), graph: Option<Graph>,
                             loadColumn: (Graph, string) -> Option<ColumnId>)
    ensures DecoderLegacy(field, graph, loadColumn) == HandlerLegacy(field, graph, loadColumn)
  {
    if StartsWith(field.0, LegacyPrefix) {
      assert field.0[..1] == field.0[..6][..1];
    }
  }

  /** Field `i` of `post` resolves to column `c`. */
  predicate Resolves(post: Form, resolve: ((string, string)) -> Option<(ColumnId, int)>, i: int, c: ColumnId) {
    0 <= i < |post| && resolve(post[i]).Some? && resolve(post[i]).value.0 == c
  }

  /** The columns of `r` are exactly those some field resolves to. */
  ghost predicate ColumnsFrom(r: Metrics, post: Form, resolve: ((string, string)) -> Option<(ColumnId, int)>) {
    forall c :: c in Keys(r) <==> exists i :: Resolves(post, resolve, i, c)
  }

  /** Every stored (column, value) pair is what some field resolves to. */
  ghost predicate ValuesFrom(r: Metrics, post: Form, resolve: ((string, string)) -> Option<(ColumnId, int)>) {
    forall x :: x in r ==> exists j :: 0 <= j < |post| && resolve(post[j]) == Some(x)
  }

  /**
    The loop of both `extractCustomData` methods: resolve every field in turn
    and `put` the result into the column map.
   */
  function Extract(post: Form, resolve: ((string, string)) -> Option<(ColumnId, int)>): (r: Metrics)
    ensures DistinctKeys(r)
    ensures ColumnsFrom(r, post, resolve)
    ensures ValuesFrom(r, post, resolve)
    decreases |post|
  {
    if |post| == 0 then []
    else
      var init := post[..|post| - 1];
      var acc := Extract(init, resolve);
      var m := resolve(post[|post| - 1]);
      var r := if m.Some? then Put(acc, m.value.0, m.value.1) else acc;
      ExtractColumnsStep(post, init, resolve, acc, r);
      ExtractValuesStep(post, init, resolve, acc, r);
      r
  }

  lemma ExtractColumnsStep(post: Form, init: Form, resolve: ((string, string)) -> Option<(ColumnId, int)>,
                           acc: Metrics, r: Metrics)
    requires |post| > 0 && init == post[..|post| - 1]
    requires ColumnsFrom(acc, init, resolve)
    requires var m := resolve(post[|post| - 1]);
      r == if m.Some? then Put(acc, m.value.0, m.value.1) else acc
    ensures ColumnsFrom(r, post, resolve)
  {
    var m := resolve(post[|post| - 1]);
    assert Keys(r) == if m.Some? then Keys(acc) + {m.value.0} else Keys(acc);
    forall c ensures c in Keys(r) <==> exists i :: Resolves(post, resolve, i, c) {
      ResolvesPrefix(post, init, resolve, c);
    }
  }

  /** A column is resolved in `post` iff in all but its last field, or by the last field. */
  lemma ResolvesPrefix(post: Form, init: Form, resolve: ((string, string)) -> Option<(ColumnId, int)>, c: ColumnId)
    requires |post| > 0 && init == post[..|post| - 1]
    ensures (exists i :: Resolves(post, resolve, i, c)) <==>
      (exists i :: Resolves(init, resolve, i, c)) || Resolves(post, resolve, |post| - 1, c)
  {
    if exists i :: Resolves(post, resolve, i, c) {
      var i :| Resolves(post, resolve, i, c);
      if i < |init| {
        assert init[i] == post[i];
        assert Resolves(init, resolve, i, c);
      }
    }
    if exists i :: Resolves(init, resolve, i, c) {
      var i :| Resolves(init, resolve, i, c);
      assert init[i] == post[i];
      assert Resolves(post, resolve, i, c);
    }
  }

  lemma ExtractValuesStep(post: Form, init: Form, resolve: ((string, string)) -> Option<(ColumnId, int)>,
                          acc: Metrics, r: Metrics)
    requires |post| > 0 && init == post[..|post| - 1]
    requires ValuesFrom(acc, init, resolve)
    requires var m := resolve(post[|post| - 1]);
      r == if m.Some? then Put(acc, m.value.0, m.value.1) else acc
    ensures ValuesFrom(r, post, resolve)
  {
    forall x | x in r ensures exists j :: 0 <= j < |post| && resolve(post[j]) == Some(x) {
      if resolve(post[|post| - 1]) == Some(x) {
      } else {
        assert x in acc;
        var j :| 0 <= j < |init| && resolve(init[j]) == Some(x);
        assert init[j] == post[j];
      }
    }
  }

  /** A field that resolves to nothing leaves the extracted data unchanged. */
  lemma ExtractSkips(post: Form, field: (string, string), resolve: ((string, string)) -> Option<(ColumnId, int)>)
    requires resolve(field).None?
    ensures Extract(post + [field], resolve) == Extract(post, resolve)
  {
    assert (post + [field])[..|post|] == post;
  }

  /** Nothing resolves exactly when the extracted data is empty. */
  lemma ExtractEmpty(post: Form, resolve: ((string, string)) -> Option<(ColumnId, int)>)
    ensures |Extract(post, resolve)| == 0 <==> forall i :: 0 <= i < |post| ==> resolve(post[i]).None?
  {
    var r := Extract(post, resolve);
    if |r| > 0 {
      assert r[0].0 in Keys(r);
    }
    if exists i :: 0 <= i < |post| && resolve(post[i]).Some? {
      var i :| 0 <= i < |post| && resolve(post[i]).Some?;
      assert Resolves(post, resolve, i, resolve(post[i]).value.0);
    }
  }

  /**
    A resolver that agrees with a more permissive one wherever it resolves
    extracts a subset of the permissive one's columns.
   */
  lemma ExtractMonotone(post: Form, strict: ((string, string)) -> Option<(ColumnId, int)>,
                        loose: ((string, string)) -> Option<(ColumnId, int)>)
    requires forall i :: 0 <= i < |post| && strict(post[i]).Some? ==> loose(post[i]) == strict(post[i])
    ensures Keys(Extract(post, strict)) <= Keys(Extract(post, loose))
  {
    forall c | c in Keys(Extract(post, strict)) ensures c in Keys(Extract(post, loose)) {
      var i :| Resolves(post, strict, i, c);
      assert Resolves(post, loose, i, c);
    }
  }

  /** The decoder's choice of scheme: current from revision 5, legacy for any other revision. */
  function DecoderCustomData(post: Form, revision: int, loadGraph: string -> Option<Graph>,
                             loadColumn: (Graph, string) -> Option<ColumnId>): (r: Metrics)
    ensures DistinctKeys(r)
    ensures revision >= 5 ==> ValuesFrom(r, post, f => DecoderCurrent(f, loadGraph, loadColumn))
    ensures revision >= 5 ==> ColumnsFrom(r, post, f => DecoderCurrent(f, loadGraph, loadColumn))
    ensures revision < 5 ==> ValuesFrom(r, post, f => DecoderLegacy(f, loadGraph(DefaultGraph), loadColumn))
    ensures revision < 5 ==> ColumnsFrom(r, post, f => DecoderLegacy(f, loadGraph(DefaultGraph), loadColumn))
  {
    if revision >= 5 then Extract(post, f => DecoderCurrent(f, loadGraph, loadColumn))
    else Extract(post, f => DecoderLegacy(f, loadGraph(DefaultGraph), loadColumn))
  }

  /** The handler's choice of scheme, for revisions it has already admitted (4 and later). */
  function HandlerCustomData(post: Form, revision: int, loadGraph: string -> Option<Graph>,
                             loadColumn: (Graph, string) -> Option<ColumnId>): (r: Metrics)
    ensures DistinctKeys(r)
    ensures revision >= 5 ==> ValuesFrom(r, post, f => HandlerCurrent(f, loadGraph, loadColumn))
    ensures revision >= 5 ==> ColumnsFrom(r, post, f => HandlerCurrent(f, loadGraph, loadColumn))
    ensures revision < 5 ==> ValuesFrom(r, post, f => HandlerLegacy(f, loadGraph(DefaultGraph), loadColumn))
    ensures revision < 5 ==> ColumnsFrom(r, post, f => HandlerLegacy(f, loadGraph(DefaultGraph), loadColumn))
  {
    if revision >= 5 then Extract(post, f => HandlerCurrent(f, loadGraph, loadColumn))
    else Extract(post, f => HandlerLegacy(f, loadGraph(DefaultGraph), loadColumn))
  }

  /** Every column the decoder extracts, the handler extracts too (it checks less). */
  lemma DecoderColumnsWithinHandler(post: Form, revision: int, loadGraph: string -> Option<Graph>,
                                    loadColumn: (Graph, string) -> Option<ColumnId>)
    ensures Keys(DecoderCustomData(post, revision, loadGraph, loadColumn))
         <= Keys(HandlerCustomData(post, revision, loadGraph, loadColumn))
  {
    if revision >= 5 {
      forall i | 0 <= i < |post| && DecoderCurrent(post[i], loadGraph, loadColumn).Some?
        ensures HandlerCurrent(post[i], loadGraph, loadColumn) == DecoderCurrent(post[i], loadGraph, loadColumn)
      {
      }
      ExtractMonotone(post, f => DecoderCurrent(f, loadGraph, loadColumn), f => HandlerCurrent(f, loadGraph, loadColumn));
    } else {
      forall i | 0 <= i < |post|
        ensures HandlerLegacy(post[i], loadGraph(DefaultGraph), loadColumn) == DecoderLegacy(post[i], loadGraph(DefaultGraph), loadColumn)
      {
        LegacyResolversAgree(post[i], loadGraph(DefaultGraph), loadColumn);
      }
      ExtractMonotone(post, f => DecoderLegacy(f, loadGraph(DefaultGraph), loadColumn), f => HandlerLegacy(f, loadGraph(DefaultGraph), loadColumn));
    }
  }

  /**
    `C~~Players~~Total=42` resolves to the column `Total` of an active graph
    `Players` with value 42, and to nothing when that graph is inactive.
   */
  lemma CurrentSchemeExample(loadGraph: string -> Option<Graph>, loadColumn: (Graph, string) -> Option<ColumnId>,
                             graph: Graph, column: ColumnId)
    requires loadGraph("Players") == Some(graph)
    requires loadColumn(graph, "Total") == Some(column)
    ensures graph.active != 0 ==> DecoderCurrent(("C~~Players~~Total", "42"), loadGraph, loadColumn) == Some((column, 42))
    ensures graph.active == 0 ==> DecoderCurrent(("C~~Players~~Total", "42"), loadGraph, loadColumn) == None
  {
    ExampleKey();
    ExampleValue();
    assert StartsWith("C~~Players~~Total", "C");
  }

  lemma ExampleKey()
    ensures MetricKey("C~~Players~~Total") == Some(("Players", "Total"))
  {
    MetricKeyOfJoin("C", "Players", "Total");
    assert "C" + "~~" + "Players" + "~~" + "Total" == "C~~Players~~Total";
  }

  lemma ExampleValue()
    ensures ParseInt("42") == Some(42)
  {
    ParseFormat(42);
    assert FormatInt(42) == "42";
  }
}

=== FILE: decoder.dfy ===
/**
  `LegacyRequestDecoder.decode`: from the posted fields to a decoded request,
  or a rejection (`null` in the source), or the exception the Java-version
  split can throw.
 */
module Decoder {
  import opened Optional
  import opened Assoc
  import opened JavaText
  import opened JavaNumbers
  import opened FormBody
  import opened CustomData

  /** The environment block, read only from protocol revision 6 on. */
  datatype Environment = Environment(
    osName: string,
    osArch: Option<string>,
    osVersion: string,
    javaName: string,
    javaVersion: string,
    cores: int,
    authMode: int)

  datatype DecodedRequest = DecodedRequest(
    guid: string,
    serverVersion: string,
    pluginVersion: string,
    isPing: bool,
    revision: int,
    playersOnline: int,
    environment: Option<Environment>,
    customData: Metrics)

  /** `Rejected` is the source's `null`; `IndexOutOfBounds` is the exception escaping `decode`. */
  datatype Decoding = Rejected | Decoded(request: DecodedRequest) | IndexOutOfBounds

  const MaxPlayers: int := 2000
  const Unknown: string := "Unknown"
  const DefaultRevision: int := 4

  /** A player count outside [0, 2000] is replaced by 0. */
  function ClampPlayers(players: int): (r: int)
    ensures 0 <= r <= MaxPlayers
    ensures 0 <= players <= MaxPlayers ==> r == players
    ensures r != players ==> r == 0
  {
    if players < 0 || players > MaxPlayers then 0 else players
  }

  /**
    The split of a `1.X.Y` Java version at its second dot into the name `1.X`
    and the version `Y`. `None` is the `StringIndexOutOfBoundsException`
    thrown when there is no second dot (`substring(0, -1)`).
   */
  function SplitJavaVersion(v: string): (r: Option<(string, string)>)
    requires StartsWith(v, "1.")
    ensures r.Some? <==> '.' in v[2..]
    ensures r.Some? ==> r.value.0 + "." + r.value.1 == v
    ensures r.Some? ==> StartsWith(r.value.0, "1.") && '.' !in r.value.0[2..]
  {
    assert v[0] == '1' && v[1] == '.';
    var first := IndexOf(v, '.', 0);
    assert first == 1;
    var second := IndexOf(v, '.', first + 1);
    if second < 0 then
      assert forall i :: 0 <= i < |v[2..]| ==> v[2..][i] == v[i + 2];
      None
    else
      assert v[2..][second - 2] == '.';
      assert v[..second] + "." + v[second + 1..] == v;
      assert forall i :: 0 <= i < |v[..second][2..]| ==> v[..second][2..][i] == v[i + 2];
      Some((v[..second], v[second + 1..]))
  }

  /** Inverse of the split: a name `1.X` without a further dot, a dot and any rest. */
  lemma SplitJavaVersionOfJoin(name: string, rest: string)
    requires StartsWith(name, "1.") && '.' !in name[2..]
    ensures SplitJavaVersion(name + "." + rest) == Some((name, rest))
  {
    var v := name + "." + rest;
    assert v[..2] == name[..2];
    assert v[|name|] == '.';
    assert v[2..][|name| - 2] == '.';
    var r := SplitJavaVersion(v);
    var n := r.value.0;
    assert n + "." + r.value.1 == v;
    assert n == v[..|n|] == name;
    assert r.value.1 == v[|n| + 1..] == rest;
  }

  /**
    `javaName` and `javaVersion` from the posted `java_version`: `("", "Unknown")`
    when absent, the split for a `1.`-prefixed value longer than three UTF-16
    units, the value unchanged with an empty name otherwise.
   */
  function JavaFields(javaVersion: Option<string>): (r: Option<(string, string)>)
    ensures javaVersion.None? ==> r == Some(("", Unknown))
    ensures r.None? <==> JavaVersionThrows(javaVersion)
    ensures r.Some? && javaVersion.Some? ==>
      (r.value.0 == "" && r.value.1 == javaVersion.value) || r.value.0 + "." + r.value.1 == javaVersion.value
    ensures r.Some? && javaVersion.Some? ==>
      (r.value.0 != "" <==> StartsWith(javaVersion.value, "1.") && Utf16Length(javaVersion.value) > 3)
    ensures r.Some? && javaVersion.Some? && r.value.0 == "" ==> r.value.1 == javaVersion.value
    ensures r.Some? && javaVersion.Some? && r.value.0 != "" ==>
      StartsWith(r.value.0, "1.") && '.' !in r.value.0[2..]
  {
    match javaVersion
    case None => Some(("", Unknown))
    case Some(v) =>
      if StartsWith(v, "1.") && Utf16Length(v) > 3 then SplitJavaVersion(v) else Some(("", v))
  }

  /** The Java version is `1.`-prefixed, longer than three UTF-16 units and has no second dot. */
  predicate JavaVersionThrows(javaVersion: Option<string>) {
    javaVersion.Some? && StartsWith(javaVersion.value, "1.") && Utf16Length(javaVersion.value) > 3 && '.' !in javaVersion.value[2..]
  }

  /** `1.8.0_211` becomes name `1.8` and version `0_211`; `17` stays whole; `1.80` throws. */
  lemma JavaFieldsExamples()
    ensures JavaFields(Some("1.8.0_211")) == Some(("1.8", "0_211"))
    ensures JavaFields(Some("17")) == Some(("", "17"))
    ensures JavaFields(Some("1.80")) == None
  {
    assert StartsWith("1.8", "1.") && '.' !in "1.8"[2..];
    assert "1.8" + "." + "0_211" == "1.8.0_211";
    SplitJavaVersionOfJoin("1.8", "0_211");
    assert !StartsWith("17", "1.");
    assert StartsWith("1.80", "1.");
    assert "1.80"[2..] == "80";
  }

  /**
    Lengths are Java's: `1.` and one character outside the Basic Multilingual
    Plane is four units long and throws, while `1.` and one accented letter is
    three units long and is kept whole.
   */
  lemma JavaFieldsSurrogates()
    ensures JavaFields(Some("1.\U{1F600}")) == None
    ensures JavaFields(Some("1.\U{E9}")) == Some(("", "1.\U{E9}"))
  {
    assert StartsWith("1.\U{1F600}", "1.");
    assert "1.\U{1F600}"[2..] == "\U{1F600}";
    assert Utf16Length("1.\U{E9}") == 3;
  }

  /**
    `cores` and the tri-state `authMode`: when `cores` is an `int`, that value
    and 1 or 0 as `online-mode` is `true` in any case or not; otherwise 0 and -1.
   */
  function CoresAndAuth(post: Form): (r: (int, int))
    ensures r.1 == -1 || r.1 == 0 || r.1 == 1
    ensures r.1 == -1 <==> ParseIntOpt(Get(post, "cores")).None?
    ensures r.1 == -1 ==> r.0 == 0
    ensures r.1 != -1 ==> ParseIntOpt(Get(post, "cores")) == Some(r.0)
    ensures r.1 == 1 <==> ParseIntOpt(Get(post, "cores")).Some? && ParseBoolean(Get(post, "online-mode"))
  {
    match ParseIntOpt(Get(post, "cores"))
    case None => (0, -1)
    case Some(cores) => (cores, if ParseBoolean(Get(post, "online-mode")) then 1 else 0)
  }

  /** The revision-6 environment block; `None` when the Java-version split throws. */
  function DecodeEnvironment(post: Form): (r: Option<Environment>)
    ensures r.None? <==> JavaVersionThrows(Get(post, "java_version"))
    ensures r.Some? ==> r.value.osName == Get(post, "osname").OrElse(Unknown)
    ensures r.Some? ==> r.value.osArch == Get(post, "osarch")
    ensures r.Some? && Get(post, "osname").None? ==> r.value.osVersion == Unknown
    ensures r.Some? && Get(post, "osname").Some? ==> r.value.osVersion == Get(post, "osversion").OrElse(Unknown)
    ensures r.Some? ==> Some((r.value.javaName, r.value.javaVersion)) == JavaFields(Get(post, "java_version"))
    ensures r.Some? ==> (r.value.cores, r.value.authMode) == CoresAndAuth(post)
  {
    var osName := Get(post, "osname");
    var osVersion := if osName.None? then Unknown else Get(post, "osversion").OrElse(Unknown);
    match JavaFields(Get(post, "java_version"))
    case None => None
    case Some(java) =>
      var coresAuth := CoresAndAuth(post);
      Some(Environment(osName.OrElse(Unknown), Get(post, "osarch"), osVersion, java.0, java.1, coresAuth.0, coresAuth.1))
  }

  /** `decode` after the body has been read and parsed into `post`. */
  function DecodeFields(post: Form, loadGraph: string -> Option<Graph>,
                        loadColumn: (Graph, string) -> Option<ColumnId>): (r: Decoding)
    ensures r.Rejected? <==> Refused(post)
    ensures r.IndexOutOfBounds? <==>
      !Refused(post) && IntField(post, "revision", DefaultRevision).value >= 6
      && JavaVersionThrows(Get(post, "java_version"))
    ensures r.Decoded? ==>
      && r.request.guid == Get(post, "guid").value
      && r.request.serverVersion == Get(post, "server").value
      && r.request.pluginVersion == Get(post, "version").value
      && r.request.isPing == ("ping" in Keys(post))
      && r.request.revision == IntField(post, "revision", DefaultRevision).value
      && r.request.playersOnline == ClampPlayers(IntField(post, "players", 0).value)
      && (r.request.environment.Some? <==> r.request.revision >= 6)
      && (r.request.revision >= 6 ==> r.request.environment == DecodeEnvironment(post))
      && r.request.customData == DecoderCustomData(post, r.request.revision, loadGraph, loadColumn)
  {
    if Get(post, "guid").None? then Rejected
    else
      match (IntField(post, "revision", DefaultRevision), IntField(post, "players", 0))
      case (Some(revision), Some(players)) =>
        if Get(post, "server").None? || Get(post, "version").None? then Rejected
        else if revision >= 6 && DecodeEnvironment(post).None? then IndexOutOfBounds
        else
          Decoded(DecodedRequest(
            Get(post, "guid").value,
            Get(post, "server").value,
            Get(post, "version").value,
            "ping" in Keys(post),
            revision,
            ClampPlayers(players),
            if revision >= 6 then DecodeEnvironment(post) else None,
            DecoderCustomData(post, revision, loadGraph, loadColumn)))
      case _ => Rejected
  }

  /** `decode(plugin, request)` on a body already read from the request stream. */
  function Decode(body: string, dec: string -> string, loadGraph: string -> Option<Graph>,
                  loadColumn: (Graph, string) -> Option<ColumnId>): (r: Decoding)
    ensures r.Rejected? <==> Refused(ParseBody(body, dec))
    ensures r.Decoded? ==> 0 <= r.request.playersOnline <= MaxPlayers
  {
    DecodeFields(ParseBody(body, dec), loadGraph, loadColumn)
  }

  /** The fields `decode` looks up by name, besides `revision` and `ping`. */
  const ReadKeys: seq<string> := ["guid", "server", "version", "players", "osname", "osarch", "osversion",
                                  "java_version", "cores", "online-mode"]

  /** Two field maps that agree on everything `decode` reads decode alike. */
  lemma DecodeFieldsAgree(post1: Form, post2: Form, loadGraph: string -> Option<Graph>,
                          loadColumn: (Graph, string) -> Option<ColumnId>)
    requires forall k :: k in ReadKeys ==> Get(post1, k) == Get(post2, k)
    requires ("ping" in Keys(post1)) == ("ping" in Keys(post2))
    requires IntField(post1, "revision", DefaultRevision) == IntField(post2, "revision", DefaultRevision)
    requires IntField(post1, "revision", DefaultRevision).Some? ==>
      var revision := IntField(post1, "revision", DefaultRevision).value;
      DecoderCustomData(post1, revision, loadGraph, loadColumn) == DecoderCustomData(post2, revision, loadGraph, loadColumn)
    ensures DecodeFields(post1, loadGraph, loadColumn) == DecodeFields(post2, loadGraph, loadColumn)
  {
    assert Get(post1, "guid") == Get(post2, "guid");
    assert Get(post1, "server") == Get(post2, "server");
    assert Get(post1, "version") == Get(post2, "version");
    assert Get(post1, "players") == Get(post2, "players");
    EnvironmentAgree(post1, post2);
  }

  /** The environment block depends only on the keys `decode` reads. */
  lemma EnvironmentAgree(post1: Form, post2: Form)
    requires forall k :: k in ReadKeys ==> Get(post1, k) == Get(post2, k)
    ensures DecodeEnvironment(post1) == DecodeEnvironment(post2)
  {
    assert Get(post1, "osname") == Get(post2, "osname");
    assert Get(post1, "osarch") == Get(post2, "osarch");
    assert Get(post1, "osversion") == Get(post2, "osversion");
    assert Get(post1, "java_version") == Get(post2, "java_version");
    assert CoresAndAuth(post1) == CoresAndAuth(post2) by {
      assert Get(post1, "cores") == Get(post2, "cores");
      assert Get(post1, "online-mode") == Get(post2, "online-mode");
    }
  }

  lemma ParsesFour()
    ensures ParseInt("4") == Some(4)
  {
    ParseFormat(4);
    assert FormatInt(4) == "4";
  }

  /** Omitting `revision` decodes exactly like sending `revision=4`. */
  lemma RevisionDefaultsToFour(post: Form, loadGraph: string -> Option<Graph>,
                               loadColumn: (Graph, string) -> Option<ColumnId>)
    requires "revision" !in Keys(post)
    ensures DecodeFields(Put(post, "revision", "4"), loadGraph, loadColumn) == DecodeFields(post, loadGraph, loadColumn)
  {
    var post' := Put(post, "revision", "4");
    ParsesFour();
    assert IntField(post', "revision", DefaultRevision) == Some(4);
    assert IntField(post, "revision", DefaultRevision) == Some(4);
    LegacyIgnoresRevision(post, loadGraph, loadColumn);
    assert DecoderCustomData(post', 4, loadGraph, loadColumn) == DecoderCustomData(post, 4, loadGraph, loadColumn);
    RevisionKeepsReads(post);
    DecodeFieldsAgree(post', post, loadGraph, loadColumn);
  }

  /** Adding `revision` changes none of the other fields `decode` reads. */
  lemma RevisionKeepsReads(post: Form)
    ensures forall k :: k in ReadKeys ==> Get(Put(post, "revision", "4"), k) == Get(post, k)
    ensures ("ping" in Keys(Put(post, "revision", "4"))) == ("ping" in Keys(post))
  {
    assert forall k :: k in ReadKeys ==> k != "revision";
  }

  /** A `revision` field appended to the form resolves to no legacy metric. */
  lemma LegacyIgnoresRevision(post: Form, loadGraph: string -> Option<Graph>,
                              loadColumn: (Graph, string) -> Option<ColumnId>)
    requires "revision" !in Keys(post)
    ensures DecoderCustomData(Put(post, "revision", "4"), DefaultRevision, loadGraph, loadColumn)
         == DecoderCustomData(post, DefaultRevision, loadGraph, loadColumn)
  {
    PutAbsent(post, "revision", "4");
    assert !StartsWith("revision", "C") by {
      assert "revision"[..1][0] == 'r';
    }
    ExtractSkips(post, ("revision", "4"), f => DecoderLegacy(f, loadGraph(DefaultGraph), loadColumn));
  }

}

=== FILE: entities.dfy ===
/**
  In-memory snapshots of the records the report handler loads and changes.
  Each setter of the source raises the record's `modified` flag, and `save()`
  writes only flagged records; the flag is therefore how the model tells a
  changed record from an untouched one.
 */
module Entities {

  /** A row of a plugin's version list, as `loadPluginVersion` returns it. */
  datatype PluginVersion = PluginVersion(id: int, version: string)

  datatype Server = Server(
    id: int,
    guid: string,
    serverVersion: string,
    players: int,
    country: string,
    violationCount: int,
    blacklisted: bool,
    history: seq<PluginVersion>,
    modified: bool)

  datatype Plugin = Plugin(id: int, name: string, globalHits: int, modified: bool)

  /** What one server has last reported for one plugin: its version and when. */
  datatype ServerPlugin = ServerPlugin(version: string, updated: int, modified: bool)
}

=== FILE: form_body.dfy ===
/**
  The `application/x-www-form-urlencoded` request body as both request
  decoders read it (`processPostRequest`): split on `&`, split each entry on
  `=`, keep the entries giving exactly two parts, percent-decode both halves,
  and store them in a map where a later key overwrites an earlier one.
  Percent-decoding (`URLUtils.decode`) is the parameter `dec`.
 */
module FormBody {
  import opened Optional
  import opened Assoc
  import opened JavaText
  import opened JavaNumbers

  /** The posted fields: keys are distinct, in order of first appearance. */
  type Form = seq<(string, string)>

  /** The decoded key and value of one `&`-entry, if its `=`-split has exactly two parts. */
  function Field(entry: string, dec: string -> string): (r: Option<(string, string)>)
    ensures r.Some? <==> |Split(entry, "=")| == 2
  {
    var parts := Split(entry, "=");
    if |parts| == 2 then Some((dec(parts[0]), dec(parts[1]))) else None
  }

  /** Entry `i` is kept and no later kept entry has the same key. */
  predicate LastFor(es: seq<string>, dec: string -> string, i: int) {
    && 0 <= i < |es|
    && Field(es[i], dec).Some?
    && forall j :: i < j < |es| && Field(es[j], dec).Some? ==> Field(es[j], dec).value.0 != Field(es[i], dec).value.0
  }

  /** Every key of `r` comes from a kept entry of `es`, and every kept entry's key is in `r`. */
  ghost predicate KeysFrom(r: Form, es: seq<string>, dec: string -> string) {
    forall k :: k in Keys(r) <==> exists i :: Carries(es, dec, i, k)
  }

  /** Entry `i` is kept and has key `k`. */
  predicate Carries(es: seq<string>, dec: string -> string, i: int, k: string) {
    0 <= i < |es| && Field(es[i], dec).Some? && Field(es[i], dec).value.0 == k
  }

  /** The last kept entry for each key decides its value in `r`. */
  ghost predicate LastWins(r: Form, es: seq<string>, dec: string -> string) {
    forall i :: LastFor(es, dec, i) ==> Get(r, Field(es[i], dec).value.0) == Some(Field(es[i], dec).value.1)
  }

  /**
    The map built from the entries in order: a key is present exactly when a
    kept entry carries it, and it holds the value of the last such entry.
   */
  function ParseEntries(es: seq<string>, dec: string -> string): (r: Form)
    ensures DistinctKeys(r)
    ensures KeysFrom(r, es, dec)
    ensures LastWins(r, es, dec)
    decreases |es|
  {
    if |es| == 0 then []
    else
      var acc := ParseEntries(es[..|es| - 1], dec);
      var f := Field(es[|es| - 1], dec);
      var r := if f.Some? then Put(acc, f.value.0, f.value.1) else acc;
      ParseEntriesStep(es, dec, acc, r);
      r
  }

  /** One more entry: the invariants of the shorter prefix carry over. */
  lemma ParseEntriesStep(es: seq<string>, dec: string -> string, acc: Form, r: Form)
    requires |es| > 0
    requires KeysFrom(acc, es[..|es| - 1], dec) && LastWins(acc, es[..|es| - 1], dec)
    requires var f := Field(es[|es| - 1], dec);
      r == if f.Some? then Put(acc, f.value.0, f.value.1) else acc
    ensures KeysFrom(r, es, dec) && LastWins(r, es, dec)
  {
    KeysStep(es, dec, acc, r);
    LastWinsStep(es, dec, acc, r);
  }

  lemma KeysStep(es: seq<string>, dec: string -> string, acc: Form, r: Form)
    requires |es| > 0
    requires KeysFrom(acc, es[..|es| - 1], dec)
    requires var f := Field(es[|es| - 1], dec);
      r == if f.Some? then Put(acc, f.value.0, f.value.1) else acc
    ensures KeysFrom(r, es, dec)
  {
    var init := es[..|es| - 1];
    var n := |es| - 1;
    var f := Field(es[n], dec);
    assert Keys(r) == if f.Some? then Keys(acc) + {f.value.0} else Keys(acc);
    forall k ensures k in Keys(r) <==> exists i :: Carries(es, dec, i, k) {
      CarriesPrefix(es, init, dec, k);
    }
  }

  /** A key is carried by `es` iff it is carried by all but the last entry or by the last one. */
  lemma CarriesPrefix(es: seq<string>, init: seq<string>, dec: string -> string, k: string)
    requires |es| > 0 && init == es[..|es| - 1]
    ensures (exists i :: Carries(es, dec, i, k)) <==>
      (exists i :: Carries(init, dec, i, k)) || Carries(es, dec, |es| - 1, k)
  {
    if exists i :: Carries(es, dec, i, k) {
      var i :| Carries(es, dec, i, k);
      if i < |init| {
        CarriesInit(es, init, dec, i, k);
      }
    }
    if exists i :: Carries(init, dec, i, k) {
      var i :| Carries(init, dec, i, k);
      CarriesInit(es, init, dec, i, k);
    }
  }

  /** An entry before the last is carried by `es` iff it is carried by the prefix. */
  lemma CarriesInit(es: seq<string>, init: seq<string>, dec: string -> string, i: int, k: string)
    requires |es| > 0 && init == es[..|es| - 1] && 0 <= i < |init|
    ensures Carries(init, dec, i, k) <==> Carries(es, dec, i, k)
  {
    assert init[i] == es[i];
  }

  lemma LastWinsStep(es: seq<string>, dec: string -> string, acc: Form, r: Form)
    requires |es| > 0
    requires LastWins(acc, es[..|es| - 1], dec)
    requires var f := Field(es[|es| - 1], dec);
      r == if f.Some? then Put(acc, f.value.0, f.value.1) else acc
    ensures LastWins(r, es, dec)
  {
    var init := es[..|es| - 1];
    var n := |es| - 1;
    forall i | LastFor(es, dec, i)
      ensures Get(r, Field(es[i], dec).value.0) == Some(Field(es[i], dec).value.1)
    {
      if i < n {
        assert LastFor(init, dec, i) by {
          assert init[i] == es[i];
          forall j | i < j < |init| && Field(init[j], dec).Some?
            ensures Field(init[j], dec).value.0 != Field(init[i], dec).value.0
          {
            assert init[j] == es[j];
          }
        }
      }
    }
  }

  /** `processPostRequest(content)`. */
  function ParseBody(body: string, dec: string -> string): (r: Form)
    ensures DistinctKeys(r)
    ensures KeysFrom(r, Split(body, "&"), dec)
    ensures LastWins(r, Split(body, "&"), dec)
  {
    ParseEntries(Split(body, "&"), dec)
  }

  /** An entry `k=v` with no `=` inside `k` or `v` and a non-empty `v` is kept as `(k, v)`. */
  lemma EntryKept(k: string, v: string)
    requires '=' !in k && '=' !in v && v != ""
    ensures Split(k + "=" + v, "=") == [k, v]
  {
    assert Join([k, v], "=") == k + "=" + v;
    PiecesOfJoin([k, v], "=");
  }

  /** `k=` has no value: its split is `[k]` and the entry is dropped. */
  lemma EntryWithoutValueDropped(k: string, dec: string -> string)
    requires '=' !in k
    ensures Split(k + "=", "=") == if k == "" then [] else [k]
    ensures Field(k + "=", dec).None?
  {
    assert Join([k, ""], "=") == k + "=";
    PiecesOfJoin([k, ""], "=");
  }

  /** `a=b=c` with a non-empty `c` splits into three parts and is dropped. */
  lemma EntryWithTwoSeparatorsDropped(a: string, b: string, c: string, dec: string -> string)
    requires '=' !in a && '=' !in b && '=' !in c && c != ""
    ensures Field(a + "=" + b + "=" + c, dec).None?
  {
    assert [a, b, c][1..] == [b, c];
    assert [b, c][1..] == [c];
    assert Join([b, c], "=") == b + "=" + c;
    assert Join([a, b, c], "=") == a + "=" + b + "=" + c;
    PiecesOfJoin([a, b, c], "=");
  }

  /** `a=b=` keeps `(a, b)`: the empty part after the second `=` is a trailing empty string. */
  lemma EntryWithTrailingSeparatorKept(a: string, b: string)
    requires '=' !in a && '=' !in b && b != ""
    ensures Split(a + "=" + b + "=", "=") == [a, b]
  {
    assert [a, b, ""][1..] == [b, ""];
    assert [b, ""][1..] == [""];
    assert Join([b, ""], "=") == b + "=" + "";
    assert Join([a, b, ""], "=") == a + "=" + b + "=";
    PiecesOfJoin([a, b, ""], "=");
  }

  /**
    Conversely, a kept entry is `k=v` followed only by `=` characters, where
    neither part contains `=` and the value is not empty.
   */
  lemma EntryShape(e: string)
    requires |Split(e, "=")| == 2
    ensures var parts := Split(e, "=");
      && '=' !in parts[0] && '=' !in parts[1] && parts[1] != ""
      && e == parts[0] + "=" + parts[1] + Repeat("=", |Pieces(e, "=")| - 2)
  {
    var parts := Split(e, "=");
    var ps := Pieces(e, "=");
    PiecesAvoid(e, '=');
    assert parts == ps[..2];
    assert parts[0] == ps[0] && parts[1] == ps[1];
    SplitJoin(e, "=");
    assert Join(parts, "=") == parts[0] + "=" + parts[1];
  }

  /** The body a client produces from its fields: `k1=v1&k2=v2&...`. */
  function Encode(fields: seq<(string, string)>): string
    requires |fields| >= 1
  {
    Join(Entries(fields), "&")
  }

  function Entries(fields: seq<(string, string)>): (es: seq<string>)
    ensures |es| == |fields|
    ensures forall i :: 0 <= i < |fields| ==> es[i] == fields[i].0 + "=" + fields[i].1
  {
    seq(|fields|, i requires 0 <= i < |fields| => fields[i].0 + "=" + fields[i].1)
  }

  /** A field a client can send unescaped: no `&` or `=` in it and a non-empty value. */
  predicate Plain(f: (string, string)) {
    '&' !in f.0 && '=' !in f.0 && '&' !in f.1 && '=' !in f.1 && f.1 != ""
  }

  /** The `&`-split of an encoded body gives back its entries. */
  lemma SplitEncoded(fields: seq<(string, string)>)
    requires |fields| >= 1
    requires forall i :: 0 <= i < |fields| ==> Plain(fields[i])
    ensures Split(Encode(fields), "&") == Entries(fields)
  {
    var es := Entries(fields);
    forall i | 0 <= i < |es| ensures '&' !in es[i] {
      assert es[i] == fields[i].0 + "=" + fields[i].1;
    }
    PiecesOfJoin(es, "&");
    assert es[|es| - 1] != "" by {
      assert |es[|es| - 1]| > 0;
    }
  }

  /**
    Round trip: parsing an encoded list of plain fields yields exactly their
    decoded keys, each holding the value of its last occurrence.
   */
  lemma ParseEncoded(fields: seq<(string, string)>, dec: string -> string)
    requires |fields| >= 1
    requires forall i :: 0 <= i < |fields| ==> Plain(fields[i])
    ensures forall k :: k in Keys(ParseBody(Encode(fields), dec)) <==>
      exists i :: 0 <= i < |fields| && dec(fields[i].0) == k
    ensures forall i :: 0 <= i < |fields| && (forall j :: i < j < |fields| ==> dec(fields[j].0) != dec(fields[i].0)) ==>
      Get(ParseBody(Encode(fields), dec), dec(fields[i].0)) == Some(dec(fields[i].1))
  {
    SplitEncoded(fields);
    EntriesKept(fields, dec);
    EncodedKeys(fields, dec);
    EncodedValues(fields, dec);
  }

  /** Every entry of plain fields is kept, decoded. */
  lemma EntriesKept(fields: seq<(string, string)>, dec: string -> string)
    requires forall i :: 0 <= i < |fields| ==> Plain(fields[i])
    ensures forall i :: 0 <= i < |fields| ==>
      Field(Entries(fields)[i], dec) == Some((dec(fields[i].0), dec(fields[i].1)))
  {
    forall i | 0 <= i < |fields| ensures Field(Entries(fields)[i], dec) == Some((dec(fields[i].0), dec(fields[i].1))) {
      EntryKept(fields[i].0, fields[i].1);
    }
  }

  lemma EncodedKeys(fields: seq<(string, string)>, dec: string -> string)
    requires forall i :: 0 <= i < |fields| ==>
      Field(Entries(fields)[i], dec) == Some((dec(fields[i].0), dec(fields[i].1)))
    ensures forall k :: k in Keys(ParseEntries(Entries(fields), dec)) <==>
      exists i :: 0 <= i < |fields| && dec(fields[i].0) == k
  {
    var es := Entries(fields);
    var r := ParseEntries(es, dec);
    forall k ensures k in Keys(r) <==> exists i :: 0 <= i < |fields| && dec(fields[i].0) == k {
      if k in Keys(r) {
        var i :| Carries(es, dec, i, k);
        assert dec(fields[i].0) == k;
      }
      if exists i :: 0 <= i < |fields| && dec(fields[i].0) == k {
        var i :| 0 <= i < |fields| && dec(fields[i].0) == k;
        assert Carries(es, dec, i, k);
      }
    }
  }

  lemma EncodedValues(fields: seq<(string, string)>, dec: string -> string)
    requires forall i :: 0 <= i < |fields| ==>
      Field(Entries(fields)[i], dec) == Some((dec(fields[i].0), dec(fields[i].1)))
    ensures forall i :: 0 <= i < |fields| && (forall j :: i < j < |fields| ==> dec(fields[j].0) != dec(fields[i].0)) ==>
      Get(ParseEntries(Entries(fields), dec), dec(fields[i].0)) == Some(dec(fields[i].1))
  {
    var es := Entries(fields);
    forall i | 0 <= i < |fields| && (forall j :: i < j < |fields| ==> dec(fields[j].0) != dec(fields[i].0))
      ensures Get(ParseEntries(es, dec), dec(fields[i].0)) == Some(dec(fields[i].1))
    {
      assert LastFor(es, dec, i);
    }
  }

  /**
    Both decoders refuse a report exactly when `guid`, `server` or `version`
    is missing, or `revision` or `players` is present but not an `int`.
   */
  predicate Refused(post: Form) {
    || Get(post, "guid").None?
    || Get(post, "server").None?
    || Get(post, "version").None?
    || (Get(post, "revision").Some? && ParseInt(Get(post, "revision").value).None?)
    || (Get(post, "players").Some? && ParseInt(Get(post, "players").value).None?)
  }

  /** An optional `int` field: `default` when absent, `None` when present but malformed. */
  function IntField(post: Form, key: string, default: int): (r: Option<int>)
    ensures r.None? <==> Get(post, key).Some? && ParseInt(Get(post, key).value).None?
    ensures r.Some? ==> IsInt32(r.value) || r.value == default
    ensures Get(post, key).None? ==> r == Some(default)
    ensures Get(post, key).Some? ==> r == ParseInt(Get(post, key).value)
  {
    match Get(post, key)
    case None => Some(default)
    case Some(s) => ParseInt(s)
  }
}

=== FILE: handler.dfy ===
/**
  `ReportHandler`: the request path from the URI and the body to the reply
  line, the records it changes and the custom-data rows it writes. Everything
  the handler asks of the database is a field of `Backend`; one clock reading
  `now` stands for the handler's three reads of the system clock.
 */
module Handler {
  import opened Optional
  import opened Assoc
  import opened JavaText
  import opened JavaNumbers
  import opened FormBody
  import opened CustomData
  import opened Decoder
  import opened Entities
  import opened Violations
  import opened Interval
  import opened WritePlan

  const ReportPath: string := "/report/"
  const LegacyReportPath: string := "/report.php?plugin="

  const InvalidArgumentsLine: string := "ERR Invalid arguments."
  const BlacklistedLine: string := "ERR Your server is blacklisted for running multiple servers on the same GUID."
  const InternalErrorLine: string := "ERR Something bad happened.."

  /** The plugin name is what follows one of the two report paths; any other URI has none. */
  function PluginName(uri: string): (r: Option<string>)
    ensures r.Some? <==> StartsWith(uri, ReportPath) || StartsWith(uri, LegacyReportPath)
    ensures r.Some? ==> uri == ReportPath + r.value || uri == LegacyReportPath + r.value
    ensures StartsWith(uri, ReportPath) ==> uri == ReportPath + r.value
  {
    if StartsWith(uri, ReportPath) then Some(uri[|ReportPath|..])
    else if StartsWith(uri, LegacyReportPath) then Some(uri[|LegacyReportPath|..])
    else None
  }

  /** Either path followed by a name yields exactly that name. */
  lemma PluginNameOfPath(name: string)
    ensures PluginName(ReportPath + name) == Some(name)
    ensures PluginName(LegacyReportPath + name) == Some(name)
  {
    var u := ReportPath + name;
    assert u[..|ReportPath|] == ReportPath;
    var l := LegacyReportPath + name;
    assert l[..|LegacyReportPath|] == LegacyReportPath;
    assert l[7] == '.' && ReportPath[7] == '/';
  }

  /** The fields the handler reads from a form it accepts. */
  datatype Report = Report(
    guid: string,
    serverVersion: string,
    pluginVersion: string,
    isPing: bool,
    revision: int,
    players: int)

  /**
    The handler's checks: `guid`, `server` and `version` must be present,
    and `revision` (default 4) and `players` (default 0) must parse when
    present. Players are not clamped here.
   */
  function ValidateReport(post: Form): (r: Option<Report>)
    ensures r.None? <==> Refused(post)
    ensures r.Some? ==>
      && Get(post, "guid") == Some(r.value.guid)
      && Get(post, "server") == Some(r.value.serverVersion)
      && Get(post, "version") == Some(r.value.pluginVersion)
      && (r.value.isPing <==> "ping" in Keys(post))
      && IsInt32(r.value.revision) && IsInt32(r.value.players)
      && ("revision" !in Keys(post) ==> r.value.revision == DefaultRevision)
      && ("revision" in Keys(post) ==> ParseInt(Get(post, "revision").value) == Some(r.value.revision))
      && ("players" !in Keys(post) ==> r.value.players == 0)
      && ("players" in Keys(post) ==> ParseInt(Get(post, "players").value) == Some(r.value.players))
  {
    match (IntField(post, "revision", DefaultRevision), IntField(post, "players", 0))
    case (Some(revision), Some(players)) =>
      if Get(post, "guid").None? || Get(post, "server").None? || Get(post, "version").None? then None
      else
        Some(Report(Get(post, "guid").value, Get(post, "server").value, Get(post, "version").value,
                    "ping" in Keys(post), revision, players))
    case _ => None
  }

  /**
    The handler and the legacy decoder refuse the same forms; on a form both
    accept they read the same fields, except that the decoder clamps the
    player count and the handler does not.
   */
  lemma ValidationAgreesWithDecoder(post: Form, loadGraph: string -> Option<Graph>,
                                    loadColumn: (Graph, string) -> Option<ColumnId>)
    ensures ValidateReport(post).None? <==> DecodeFields(post, loadGraph, loadColumn).Rejected?
    ensures DecodeFields(post, loadGraph, loadColumn).Decoded? ==>
      var q := DecodeFields(post, loadGraph, loadColumn).request;
      var r := ValidateReport(post).value;
      && q.guid == r.guid && q.serverVersion == r.serverVersion && q.pluginVersion == r.pluginVersion
      && q.isPing == r.isPing && q.revision == r.revision
      && q.playersOnline == ClampPlayers(r.players)
  {
  }

  /**
    The version step of `handle`: a changed plugin version is recorded on the server-plugin
    record and, when the server had reported a version before and the version
    is known, appended to the server's history.
   */
  function ReconcileVersions(server: Server, sp: ServerPlugin, pluginVersion: string,
                             found: Option<PluginVersion>): (r: (Server, ServerPlugin))
    ensures r.1.version == pluginVersion && r.1.updated == sp.updated
    ensures r.1.modified <==> sp.modified || sp.version != pluginVersion
    ensures r.0.history == server.history +
      (if sp.version != pluginVersion && server.serverVersion != "" && found.Some? then [found.value] else [])
    ensures r.0.(history := server.history) == server
  {
    if sp.version == pluginVersion then (server, sp)
    else
      var s := if server.serverVersion != "" && found.Some? then server.(history := server.history + [found.value]) else server;
      (s, sp.(version := pluginVersion, modified := true))
  }

  /**
    The server-update step of `handle`: each field is set, and the record flagged, only when the
    report differs from it; a negative player count and an absent or empty
    country code leave the stored value.
   */
  function UpdateServer(server: Server, report: Report, geoip: Option<string>): (r: Server)
    ensures r.serverVersion == report.serverVersion
    ensures r.players == if report.players >= 0 then report.players else server.players
    ensures r.country == if geoip.Some? && geoip.value != "" then geoip.value else server.country
    ensures r.modified <==>
      || server.modified
      || server.serverVersion != report.serverVersion
      || (report.players >= 0 && report.players != server.players)
      || (geoip.Some? && geoip.value != "" && geoip.value != server.country)
    ensures r.(serverVersion := server.serverVersion, players := server.players, country := server.country,
               modified := server.modified) == server
  {
    var s1 := if server.serverVersion != report.serverVersion
      then server.(serverVersion := report.serverVersion, modified := true) else server;
    var s2 := if s1.players != report.players && report.players >= 0
      then s1.(players := report.players, modified := true) else s1;
    if geoip.Some? && geoip.value != "" && s2.country != geoip.value
    then s2.(country := geoip.value, modified := true) else s2
  }

  /** Once saved, the same report and country change nothing: the update is change-only. */
  lemma UpdateServerSettles(server: Server, report: Report, geoip: Option<string>)
    ensures var saved := UpdateServer(server, report, geoip).(modified := false);
      UpdateServer(saved, report, geoip) == saved
  {
  }

  /** The hit-counting step of `handle`: a report that is not a ping counts one start of the plugin. */
  function CountHit(plugin: Plugin, isPing: bool): (r: Plugin)
    ensures r.globalHits == plugin.globalHits + (if isPing then 0 else 1)
    ensures r.modified <==> plugin.modified || !isPing
    ensures r.(globalHits := plugin.globalHits, modified := plugin.modified) == plugin
  {
    if isPing then plugin else plugin.(globalHits := plugin.globalHits + 1, modified := true)
  }

  /** What the handler asks of the database, as total lookups. */
  datatype Backend = Backend(
    loadPlugin: string -> Plugin,
    loadServer: string -> Server,
    isBlacklisted: Server -> bool,
    loadServerPlugin: (Server, Plugin, string) -> Option<ServerPlugin>,
    loadPluginVersion: (Plugin, string) -> Option<PluginVersion>,
    loadGraph: (int, string) -> Option<Graph>,
    loadColumn: (Graph, string) -> Option<ColumnId>)

  /**
    The custom-data step of `handle`: from revision 4 on, the resolved custom data of the
    plugin (current scheme from revision 5) becomes one row per column,
    stamped with `now`; below revision 4 nothing is written.
   */
  function CustomPlan(post: Form, revision: int, serverId: int, pluginId: int, b: Backend, now: int): (plan: seq<DataPoint>)
    ensures revision < 4 ==> plan == []
    ensures forall p :: p in plan ==> p.server == serverId && p.plugin == pluginId && p.updated == now
    ensures forall i, j :: 0 <= i < j < |plan| ==> plan[i].column != plan[j].column
    ensures revision >= 4 ==>
      var data := HandlerCustomData(post, revision, g => b.loadGraph(pluginId, g), b.loadColumn);
      |plan| == |data| && forall p :: p in plan ==> Get(data, p.column) == Some(p.value)
  {
    if revision < 4 then []
    else Plan(HandlerCustomData(post, revision, g => b.loadGraph(pluginId, g), b.loadColumn), serverId, pluginId, now)
  }

  /**
    The result of one request: the reply line, the records as the handler
    leaves them (`None` when never loaded), the custom-data rows written,
    whether a blacklisting was stored and whether the records were saved.
   */
  datatype Outcome = Outcome(
    line: string,
    server: Option<Server>,
    plugin: Option<Plugin>,
    serverPlugin: Option<ServerPlugin>,
    plan: seq<DataPoint>,
    blacklistStored: bool,
    saved: bool)

  const Refusal: Outcome := Outcome(InvalidArgumentsLine, None, None, None, [], false, false)

  /** The tail of `handle`: everything after the server-plugin record was loaded. */
  function Complete(report: Report, post: Form, server: Server, plugin: Plugin, sp: ServerPlugin,
                    stored: bool, b: Backend, geoip: Option<string>, now: int): (o: Outcome)
    ensures o.saved && o.blacklistStored == stored
    ensures o.line == FirstUpdateLine || o.line == OkLine
    ensures o.line == FirstUpdateLine <==> Bucket(now) > sp.updated
    ensures o.server.Some? && o.plugin.Some? && o.serverPlugin.Some?
    ensures var s := o.server.value;
      && s.id == server.id && s.guid == server.guid && s.blacklisted == server.blacklisted
      && s.serverVersion == report.serverVersion
      && s.players == (if report.players >= 0 then report.players else server.players)
      && s.country == (if geoip.Some? && geoip.value != "" then geoip.value else server.country)
      && s.violationCount == (if o.line == FirstUpdateLine then 0 else server.violationCount)
      && s.history == server.history +
        (if sp.version != report.pluginVersion && server.serverVersion != ""
            && b.loadPluginVersion(plugin, report.pluginVersion).Some?
         then [b.loadPluginVersion(plugin, report.pluginVersion).value] else [])
    ensures o.plugin.value.id == plugin.id && o.plugin.value.name == plugin.name
    ensures o.plugin.value.globalHits == plugin.globalHits + (if report.isPing then 0 else 1)
    ensures o.serverPlugin.value.version == report.pluginVersion && o.serverPlugin.value.updated == now
    ensures o.plan == CustomPlan(post, report.revision, server.id, plugin.id, b, now)
  {
    var (s1, sp1) := ReconcileVersions(server, sp, report.pluginVersion, b.loadPluginVersion(plugin, report.pluginVersion));
    var s2 := UpdateServer(s1, report, geoip);
    var p := CountHit(plugin, report.isPing);
    var plan := CustomPlan(post, report.revision, server.id, plugin.id, b, now);
    var c := CloseInterval(s2, sp1, now);
    Outcome(c.line, Some(c.server), Some(p), Some(c.serverPlugin), plan, stored, true)
  }

  /** The loading steps of `handle`: load the records, apply the violation check, load the server-plugin record. */
  function Process(report: Report, post: Form, name: string, b: Backend, geoip: Option<string>, now: int): (o: Outcome)
    ensures var server := b.loadServer(report.guid);
      var v := CheckViolations(server, b.isBlacklisted(server));
      var plugin := b.loadPlugin(name);
      && (o.line == BlacklistedLine <==> v.Refuse?)
      && (o.line == InternalErrorLine <==> v.Admit? && b.loadServerPlugin(v.server, plugin, report.pluginVersion).None?)
      && (o.saved <==> v.Admit? && b.loadServerPlugin(v.server, plugin, report.pluginVersion).Some?)
      && (o.blacklistStored <==> v.Admit? && v.storeBlacklist)
      && (!o.saved ==> o.server == Some(v.server) && o.plugin == Some(plugin) && o.serverPlugin.None? && o.plan == [])
    ensures o.plugin.Some? && o.line != InvalidArgumentsLine
    ensures o.saved ==> o.plugin.value.globalHits == b.loadPlugin(name).globalHits + (if report.isPing then 0 else 1)
  {
    assert |InvalidArgumentsLine| == 22;
    assert |BlacklistedLine| != 22 && |InternalErrorLine| != 22 && |FirstUpdateLine| != 22 && |OkLine| != 22;
    var plugin := b.loadPlugin(name);
    var server := b.loadServer(report.guid);
    match CheckViolations(server, b.isBlacklisted(server))
    case Refuse(s) => Outcome(BlacklistedLine, Some(s), Some(plugin), None, [], false, false)
    case Admit(s, store) =>
      match b.loadServerPlugin(s, plugin, report.pluginVersion)
      case None => Outcome(InternalErrorLine, Some(s), Some(plugin), None, [], store, false)
      case Some(sp) => Complete(report, post, s, plugin, sp, store, b, geoip, now)
  }

  /** `handle` from the parsed form on, for the plugin `name`. */
  function HandleForm(name: string, post: Form, b: Backend, geoip: Option<string>, now: int): (o: Outcome)
    ensures o.line == InvalidArgumentsLine <==> Refused(post)
    ensures o.line == InvalidArgumentsLine ==> o == Refusal
    ensures o.saved ==> o.plugin.Some?
    ensures o.saved ==>
      o.plugin.value.globalHits == b.loadPlugin(name).globalHits + (if "ping" in Keys(post) then 0 else 1)
  {
    match ValidateReport(post)
    case None => Refusal
    case Some(report) => Process(report, post, name, b, geoip, now)
  }

  /**
    `ReportHandler.handle` for a POST: a URI without a plugin name or a form
    the handler refuses gets the invalid-arguments line and touches nothing.
   */
  function Handle(uri: string, body: string, dec: string -> string, b: Backend,
                  geoip: Option<string>, now: int): (o: Outcome)
    ensures o.line == InvalidArgumentsLine <==> PluginName(uri).None? || Refused(ParseBody(body, dec))
    ensures o.line == InvalidArgumentsLine ==> o == Refusal
    ensures o.saved ==> o.plugin.Some? && PluginName(uri).Some?
    ensures o.saved ==>
      o.plugin.value.globalHits ==
        b.loadPlugin(PluginName(uri).value).globalHits + (if "ping" in Keys(ParseBody(body, dec)) then 0 else 1)
  {
    match PluginName(uri)
    case None => Refusal
    case Some(name) => HandleForm(name, ParseBody(body, dec), b, geoip, now)
  }

  /** A second report in the same second, whatever it carries, is not the first of its interval. */
  lemma SecondReportIsOk(report: Report, post: Form, server: Server, plugin: Plugin, sp: ServerPlugin, stored: bool,
                         report2: Report, post2: Form, server2: Server, plugin2: Plugin, stored2: bool,
                         b: Backend, geoip: Option<string>, geoip2: Option<string>, now: int)
    requires now >= 0
    ensures var o := Complete(report, post, server, plugin, sp, stored, b, geoip, now);
      Complete(report2, post2, server2, plugin2, o.serverPlugin.value, stored2, b, geoip2, now).line == OkLine
  {
  }

  /**
    Sending the same report twice writes the same custom-data rows, and the
    table after both writes is the table after the first.
   */
  lemma RepeatedReportSameData(table: map<RowKey, Row>, report: Report, post: Form,
                               server: Server, plugin: Plugin, sp: ServerPlugin, stored: bool,
                               server2: Server, plugin2: Plugin, sp2: ServerPlugin, stored2: bool,
                               b: Backend, geoip: Option<string>, now: int)
    requires server2.id == server.id && plugin2.id == plugin.id
    ensures var o := Complete(report, post, server, plugin, sp, stored, b, geoip, now);
      var o2 := Complete(report, post, server2, plugin2, sp2, stored2, b, geoip, now);
      o2.plan == o.plan && Upsert(Upsert(table, o.plan), o2.plan) == Upsert(table, o.plan)
  {
    UpsertIdempotent(table, Complete(report, post, server, plugin, sp, stored, b, geoip, now).plan);
  }

  /** Above the decoder's cap the handler stores the count while the decoder reports none. */
  lemma PlayerPoliciesDiffer(server: Server, report: Report, geoip: Option<string>)
    requires report.players > MaxPlayers
    ensures UpdateServer(server, report, geoip).players == report.players
    ensures ClampPlayers(report.players) == 0
  {
  }
}

=== FILE: interval.dfy ===
/**
  `ReportHandler.normalizeTime` and the end of `handle`: the half-hour bucket
  that decides whether this is the server's first update of the interval.
 */
module Interval {
  import opened Entities
  import opened JavaNumbers

  const IntervalMinutes: int := 30
  const IntervalSeconds: int := IntervalMinutes * 60

  const FirstUpdateLine: string := "OK This is your first update this hour."
  const OkLine: string := "OK"

  /**
    `Math.round((now - denom / 2) / denom) * denom` with Java's truncating
    `int` division; `Math.round` receives an integral value and returns it.
    For a clock past 900 seconds this is the largest multiple of 1800 not
    above `now - 900`.
   */
  function Bucket(now: int): (b: int)
    ensures b % IntervalSeconds == 0
    ensures now >= IntervalSeconds / 2 ==> b <= now - IntervalSeconds / 2 < b + IntervalSeconds
    ensures now >= 0 ==> b <= now
  {
    var q := JavaDiv(now - IntervalSeconds / 2, IntervalSeconds);
    assert (q * IntervalSeconds) % IntervalSeconds == 0;
    q * IntervalSeconds
  }

  /** Buckets never go back as the clock advances. */
  lemma BucketMonotone(t1: int, t2: int)
    requires IntervalSeconds / 2 <= t1 <= t2
    ensures Bucket(t1) <= Bucket(t2)
  {
  }

  datatype Closing = Closing(server: Server, serverPlugin: ServerPlugin, line: string)

  /**
    A bucket newer than the last update resets the violation count and
    selects the first-update line; the last update becomes `now` either way.
   */
  function CloseInterval(server: Server, sp: ServerPlugin, now: int): (c: Closing)
    ensures c.line == FirstUpdateLine <==> Bucket(now) > sp.updated
    ensures c.line == FirstUpdateLine || c.line == OkLine
    ensures c.server.violationCount == if c.line == FirstUpdateLine then 0 else server.violationCount
    ensures c.server.(violationCount := server.violationCount, modified := server.modified) == server
    ensures c.server.modified == (server.modified || c.line == FirstUpdateLine)
    ensures c.serverPlugin.updated == now && c.serverPlugin.version == sp.version && c.serverPlugin.modified
  {
    var first := Bucket(now) > sp.updated;
    var s := if first then server.(violationCount := 0, modified := true) else server;
    Closing(s, sp.(updated := now, modified := true), if first then FirstUpdateLine else OkLine)
  }

  /** A second report in the same second is never the first of its interval. */
  lemma SameSecondIsOk(server: Server, server2: Server, sp: ServerPlugin, now: int)
    requires now >= 0
    ensures CloseInterval(server2, CloseInterval(server, sp, now).serverPlugin, now).line == OkLine
  {
  }

  /** Nor is a later report that falls into the same bucket. */
  lemma SameBucketIsOk(server: Server, server2: Server, sp: ServerPlugin, t1: int, t2: int)
    requires 0 <= t1 && Bucket(t2) == Bucket(t1)
    ensures CloseInterval(server2, CloseInterval(server, sp, t1).serverPlugin, t2).line == OkLine
  {
  }
}

=== FILE: java_numbers.dfy ===
/**
  `Integer.parseInt`, `Boolean.parseBoolean` and `int` division as the
  collector uses them, with the 32-bit range of Java's `int` written out.
 */
module JavaNumbers {
  import opened Optional

  const IntMin: int := -0x8000_0000
  const IntMax: int := 0x7fff_ffff

  /** A value of Java's `int` type. */
  predicate IsInt32(x: int) {
    IntMin <= x <= IntMax
  }

  predicate IsDigit(c: char) {
    '0' <= c <= '9'
  }

  predicate AllDigits(s: string) {
    forall i :: 0 <= i < |s| ==> IsDigit(s[i])
  }

  /** The value of a string of decimal digits, most significant first. */
  function DigitsValue(s: string): nat
    requires AllDigits(s)
    decreases |s|
  {
    if |s| == 0 then 0
    else DigitsValue(s[..|s| - 1]) * 10 + (s[|s| - 1] as int - '0' as int)
  }

  /** The digits after an optional leading `+` or `-`. */
  function Magnitude(s: string): string {
    if |s| > 0 && (s[0] == '+' || s[0] == '-') then s[1..] else s
  }

  /** An optional sign followed by at least one ASCII digit. */
  predicate IsNumeral(s: string) {
    |Magnitude(s)| > 0 && AllDigits(Magnitude(s))
  }

  function NumeralValue(s: string): int
    requires IsNumeral(s)
  {
    if s[0] == '-' then -(DigitsValue(Magnitude(s)) as int) else DigitsValue(Magnitude(s))
  }

  /**
    `Integer.parseInt(s)`: `None` stands for the `NumberFormatException` thrown
    for anything that is not a numeral or whose value does not fit an `int`.
   */
  function ParseInt(s: string): (r: Option<int>)
    ensures r.Some? ==> IsInt32(r.value)
    ensures r.Some? <==> IsNumeral(s) && IsInt32(NumeralValue(s))
    ensures r.Some? ==> r.value == NumeralValue(s)
  {
    if IsNumeral(s) && IsInt32(NumeralValue(s)) then Some(NumeralValue(s)) else None
  }

  /** `Integer.parseInt` applied to a possibly absent (`null`) value. */
  function ParseIntOpt(s: Option<string>): (r: Option<int>)
    ensures r.Some? ==> s.Some? && ParseInt(s.value) == r
  {
    match s
    case None => None
    case Some(v) => ParseInt(v)
  }

  function DigitChar(n: nat): (c: char)
    requires n < 10
    ensures IsDigit(c) && c as int - '0' as int == n
  {
    ('0' as int + n) as char
  }

  /** The shortest decimal numeral of `n`. */
  function FormatNat(n: nat): (s: string)
    ensures |s| > 0 && AllDigits(s)
    decreases n
  {
    if n < 10 then [DigitChar(n)] else FormatNat(n / 10) + [DigitChar(n % 10)]
  }

  /** `Integer.toString(n)`. */
  function FormatInt(n: int): string {
    if n < 0 then "-" + FormatNat(-n) else FormatNat(n)
  }

  lemma {:induction false} FormatNatValue(n: nat)
    ensures DigitsValue(FormatNat(n)) == n
    decreases n
  {
    if n >= 10 {
      var s := FormatNat(n);
      FormatNatValue(n / 10);
      assert s[..|s| - 1] == FormatNat(n / 10);
    }
  }

  /** Every `int` survives printing and parsing back. */
  lemma ParseFormat(n: int)
    requires IsInt32(n)
    ensures ParseInt(FormatInt(n)) == Some(n)
  {
    if n < 0 {
      NegativeNumeral(-n);
    } else {
      FormatNatValue(n);
      assert IsDigit(FormatNat(n)[0]);
      assert Magnitude(FormatNat(n)) == FormatNat(n);
    }
  }

  /** A minus sign before the numeral of `m` reads back as `-m`. */
  lemma NegativeNumeral(m: nat)
    requires m > 0
    ensures IsNumeral("-" + FormatNat(m)) && NumeralValue("-" + FormatNat(m)) == -(m as int)
  {
    var d := FormatNat(m);
    FormatNatValue(m);
    assert ("-" + d)[0] == '-' && ("-" + d)[1..] == d;
  }

  /** ASCII lower-casing, the only case mapping that matters for `"true"`. */
  function ToLower(c: char): char {
    if 'A' <= c <= 'Z' then (c as int + 32) as char else c
  }

  /** `a.equalsIgnoreCase(b)`. */
  predicate EqualsIgnoreCase(a: string, b: string) {
    |a| == |b| && forall i :: 0 <= i < |a| ==> ToLower(a[i]) == ToLower(b[i])
  }

  /** `s.toLowerCase()` for ASCII. */
  function LowerCase(s: string): (r: string)
    ensures |r| == |s|
    ensures forall i :: 0 <= i < |s| ==> r[i] == ToLower(s[i])
  {
    seq(|s|, i requires 0 <= i < |s| => ToLower(s[i]))
  }

  /** `Boolean.parseBoolean(s)`: true exactly for a non-null `"true"` in any case. */
  function ParseBoolean(s: Option<string>): (r: bool)
    ensures r ==> s.Some? && |s.value| == 4
    ensures s == Some("true") || s == Some("TRUE") ==> r
    ensures r <==> s.Some? && LowerCase(s.value) == "true"
  {
    s.Some? && EqualsIgnoreCase(s.value, "true")
  }

  /** Mixed case still reads as true; any other four letters read as false. */
  lemma ParseBooleanExamples()
    ensures ParseBoolean(Some("True"))
    ensures !ParseBoolean(Some("abcd"))
    ensures !ParseBoolean(None)
  {
    assert LowerCase("abcd")[0] == 'a';
  }

  /**
    Java's `a / b` on `int`: the quotient truncated toward zero, unlike Dafny's
    Euclidean `/`.
   */
  function JavaDiv(a: int, b: int): (q: int)
    requires b > 0
    ensures a >= 0 ==> q * b <= a < q * b + b
    ensures a < 0 ==> q * b - b < a <= q * b
  {
    if a >= 0 then a / b else -((-a) / b)
  }
}

=== FILE: java_text.dfy ===
/**
  The `java.lang.String` operations the collector relies on, over `seq<char>`:
  `length`, `startsWith`, `split` with a literal delimiter, `indexOf(char, from)` and
  `replaceAll` of one character by another.
 */
module JavaText {

  /**
    `s.length()`: Java counts UTF-16 code units, so a character outside the
    Basic Multilingual Plane counts twice.
   */
  function Utf16Length(s: string): (n: nat)
    ensures |s| <= n <= 2 * |s|
    ensures n == |s| <==> forall i :: 0 <= i < |s| ==> s[i] as int < 0x1_0000
    ensures |s| == 1 ==> n == (if s[0] as int < 0x1_0000 then 1 else 2)
    decreases |s|
  {
    if |s| == 0 then 0
    else (if s[0] as int < 0x1_0000 then 1 else 2) + Utf16Length(s[1..])
  }

  /** The UTF-16 length of a concatenation is the sum of the parts' lengths. */
  lemma {:induction false} Utf16LengthAppend(a: string, b: string)
    ensures Utf16Length(a + b) == Utf16Length(a) + Utf16Length(b)
    decreases |a|
  {
    if |a| > 0 {
      assert (a + b)[0] == a[0];
      assert (a + b)[1..] == a[1..] + b;
      Utf16LengthAppend(a[1..], b);
    } else {
      assert a + b == b;
    }
  }

  /** `s.startsWith(prefix)`. */
  predicate StartsWith(s: string, prefix: string) {
    |prefix| <= |s| && s[..|prefix|] == prefix
  }

  /**
    The pieces of `s` between the leftmost non-overlapping occurrences of the
    literal `d`, scanning left to right as a regex matcher does; nothing is
    dropped yet.
   */
  function Pieces(s: string, d: string): (r: seq<string>)
    requires |d| > 0
    ensures |r| >= 1
    decreases |s|
  {
    if |s| < |d| then [s]
    else if s[..|d|] == d then [""] + Pieces(s[|d|..], d)
    else
      var rest := Pieces(s[1..], d);
      [[s[0]] + rest[0]] + rest[1..]
  }

  /** The pieces glued back together with `d` between neighbours. */
  function Join(ps: seq<string>, d: string): string
    requires |ps| >= 1
    decreases |ps|
  {
    if |ps| == 1 then ps[0] else ps[0] + d + Join(ps[1..], d)
  }

  /** `n` copies of `d`. */
  function Repeat(d: string, n: nat): (r: string)
    ensures |r| == n * |d|
  {
    if n == 0 then "" else Repeat(d, n - 1) + d
  }

  lemma JoinConsChar(c: char, ps: seq<string>, d: string)
    requires |ps| >= 1
    ensures Join([[c] + ps[0]] + ps[1..], d) == [c] + Join(ps, d)
  {
    var qs := [[c] + ps[0]] + ps[1..];
    if |ps| > 1 {
      assert qs[1..] == ps[1..];
    }
  }

  /** Cutting at the delimiter and gluing back loses nothing. */
  lemma {:induction false} JoinPieces(s: string, d: string)
    requires |d| > 0
    ensures Join(Pieces(s, d), d) == s
    decreases |s|
  {
    if |s| < |d| {
    } else if s[..|d|] == d {
      JoinPieces(s[|d|..], d);
      var ps := Pieces(s, d);
      assert ps[1..] == Pieces(s[|d|..], d);
      assert s == s[..|d|] + s[|d|..];
    } else {
      JoinPieces(s[1..], d);
      JoinConsChar(s[0], Pieces(s[1..], d), d);
      assert s == [s[0]] + s[1..];
    }
  }

  /** A string without the delimiter's first character is a single piece. */
  lemma {:induction false} PiecesWithoutDelimiter(s: string, d: string)
    requires |d| > 0
    requires d[0] !in s
    ensures Pieces(s, d) == [s]
    decreases |s|
  {
    if |s| >= |d| {
      assert s[..|d|][0] != d[0];
      PiecesWithoutDelimiter(s[1..], d);
      assert [s[0]] + s[1..] == s;
    }
  }

  /** A prefix free of the delimiter's first character joins the first piece. */
  lemma {:induction false} PiecesPrefix(p: string, t: string, d: string)
    requires |d| > 0
    requires d[0] !in p
    ensures Pieces(p + t, d) == [p + Pieces(t, d)[0]] + Pieces(t, d)[1..]
    decreases |p|
  {
    if |p| == 0 {
      var pt := Pieces(t, d);
      assert p + t == t;
      assert p + pt[0] == pt[0];
      assert [pt[0]] + pt[1..] == pt;
    } else {
      var s := p + t;
      if |s| < |d| {
        assert Pieces(t, d) == [t];
      } else {
        assert s[..|d|][0] == p[0];
        assert s[1..] == p[1..] + t;
        PiecesPrefix(p[1..], t, d);
        assert [s[0]] + (p[1..] + Pieces(t, d)[0]) == p + Pieces(t, d)[0];
      }
    }
  }

  /**
    Round trip the other way: pieces that avoid the delimiter's first
    character come back unchanged from their join.
   */
  lemma {:induction false} PiecesOfJoin(ps: seq<string>, d: string)
    requires |d| > 0
    requires |ps| >= 1
    requires forall i :: 0 <= i < |ps| ==> d[0] !in ps[i]
    ensures Pieces(Join(ps, d), d) == ps
    decreases |ps|
  {
    if |ps| == 1 {
      PiecesWithoutDelimiter(ps[0], d);
    } else {
      var rest := Join(ps[1..], d);
      PiecesOfJoin(ps[1..], d);
      assert (d + rest)[..|d|] == d;
      assert (d + rest)[|d|..] == rest;
      assert Pieces(d + rest, d) == [""] + ps[1..];
      assert ps[0] + d + rest == ps[0] + (d + rest);
      assert Join(ps, d) == ps[0] + (d + rest);
      PiecesPrefix(ps[0], d + rest, d);
      assert ps[0] + "" == ps[0];
      assert [ps[0]] + ps[1..] == ps;
    }
  }

  /** No piece of a split at a one-character delimiter contains that character. */
  lemma {:induction false} PiecesAvoid(s: string, c: char)
    ensures forall i :: 0 <= i < |Pieces(s, [c])| ==> c !in Pieces(s, [c])[i]
    decreases |s|
  {
    if |s| >= 1 {
      PiecesAvoid(s[1..], c);
      if s[..1] != [c] {
        assert s[0] != c;
      }
    }
  }

  /** The pieces with the trailing empty ones removed. */
  function DropTrailingEmpty(ps: seq<string>): (r: seq<string>)
    ensures |r| <= |ps| && r == ps[..|r|]
    ensures |r| == 0 || r[|r| - 1] != ""
    ensures forall i :: |r| <= i < |ps| ==> ps[i] == ""
    decreases |ps|
  {
    if |ps| > 0 && ps[|ps| - 1] == "" then DropTrailingEmpty(ps[..|ps| - 1]) else ps
  }

  /**
    `s.split(d)` for a delimiter without regex metacharacters: when `d` does
    not occur the result is `[s]` itself; otherwise trailing empty strings are
    removed.
   */
  function Split(s: string, d: string): (r: seq<string>)
    requires |d| > 0
    ensures |r| <= |Pieces(s, d)|
    ensures r == [s] || |r| == 0 || r[|r| - 1] != ""
    ensures |Pieces(s, d)| == 1 ==> r == [s]
    ensures |Pieces(s, d)| > 1 ==>
      && r == Pieces(s, d)[..|r|]
      && (|r| == 0 || r[|r| - 1] != "")
      && forall i :: |r| <= i < |Pieces(s, d)| ==> Pieces(s, d)[i] == ""
  {
    var ps := Pieces(s, d);
    if |ps| == 1 then [s] else DropTrailingEmpty(ps)
  }

  lemma {:induction false} JoinAppendEmpty(ps: seq<string>, d: string)
    requires |ps| >= 1
    ensures Join(ps + [""], d) == Join(ps, d) + d
    decreases |ps|
  {
    if |ps| == 1 {
      assert (ps + [""])[1..] == [""];
    } else {
      assert (ps + [""])[1..] == ps[1..] + [""];
      JoinAppendEmpty(ps[1..], d);
    }
  }

  lemma {:induction false} JoinPadded(r: seq<string>, n: nat, d: string)
    requires |r| >= 1
    ensures Join(r + seq(n, _ => ""), d) == Join(r, d) + Repeat(d, n)
    decreases n
  {
    if n == 0 {
      assert r + seq(n, _ => "") == r;
    } else {
      JoinPadded(r, n - 1, d);
      assert r + seq(n, _ => "") == (r + seq(n - 1, _ => "")) + [""];
      JoinAppendEmpty(r + seq(n - 1, _ => ""), d);
    }
  }

  /**
    What `Split` keeps, glued with `d`, is all of `s` except a run of
    delimiters at its end.
   */
  lemma SplitJoin(s: string, d: string)
    requires |d| > 0
    requires |Split(s, d)| >= 1
    ensures s == Join(Split(s, d), d) + Repeat(d, |Pieces(s, d)| - |Split(s, d)|)
  {
    var ps := Pieces(s, d);
    var r := Split(s, d);
    JoinPieces(s, d);
    if |ps| == 1 {
      assert r == ps;
      assert Repeat(d, 0) == "";
    } else {
      assert r == DropTrailingEmpty(ps);
      DropTrailingPadding(ps);
      JoinPadded(r, |ps| - |r|, d);
    }
  }

  /** What `DropTrailingEmpty` removes is a run of empty strings. */
  lemma DropTrailingPadding(ps: seq<string>)
    ensures ps == DropTrailingEmpty(ps) + seq(|ps| - |DropTrailingEmpty(ps)|, _ => "")
  {
    var r := DropTrailingEmpty(ps);
    var pad := seq(|ps| - |r|, _ => "");
    assert forall i :: 0 <= i < |ps| ==> ps[i] == (r + pad)[i];
  }

  /**
    `s.indexOf(c, from)`: the first position at or after `from` holding `c`,
    or -1 when there is none.
   */
  function IndexOf(s: string, c: char, from: nat): (r: int)
    ensures r == -1 || (from <= r < |s| && s[r] == c)
    ensures forall i :: from <= i < |s| && (r == -1 || i < r) ==> s[i] != c
    decreases |s| - from
  {
    if from >= |s| then -1
    else if s[from] == c then from
    else IndexOf(s, c, from + 1)
  }

  /** `s.replaceAll(x, y)` for a one-character pattern and replacement. */
  function ReplaceChar(s: string, x: char, y: char): (r: string)
    ensures |r| == |s|
    ensures forall i :: 0 <= i < |s| ==> r[i] == (if s[i] == x then y else s[i])
    ensures x != y ==> x !in r
  {
    seq(|s|, i requires 0 <= i < |s| => if s[i] == x then y else s[i])
  }

  /** Replacing a character that did not occur can be undone by replacing back. */
  lemma ReplaceCharUndo(s: string, x: char, y: char)
    requires y !in s
    ensures ReplaceChar(ReplaceChar(s, x, y), y, x) == s
  {
  }
}

=== FILE: optional.dfy ===
/**
  Java's nullable references made explicit: `None` is `null`, `Some(v)` a
  reference to `v`. `HashMap.get` of a missing key and an absent form field
  both come out as `None`.
 */
module Optional {

  datatype Option<+T> = None | Some(value: T) {

    /** `x != null ? x : fallback`, the substitution the decoder makes for missing fields. */
    function OrElse(fallback: T): T {
      if Some? then value else fallback
    }
  }
}

=== FILE: violations.dfy ===
/**
  The anti-abuse check at the start of `ReportHandler.handle`: a server whose
  violation count reaches the threshold, or that the database lists as
  blacklisted, is refused — the former only from its next report on.
 */
module Violations {
  import opened Entities

  const MaxViolations: int := 7

  /** `Refuse` ends the request; `Admit` lets it go on, possibly storing a new blacklisting. */
  datatype Verdict = Refuse(server: Server) | Admit(server: Server, storeBlacklist: bool)

  /**
    The three steps: escalate a server the database lists (consulted only
    below the threshold), refuse a blacklisted server, and blacklist — but
    still admit — a server at or above the threshold.
   */
  function CheckViolations(server: Server, listed: bool): (v: Verdict)
    ensures v.Refuse? <==> server.blacklisted || (server.violationCount < MaxViolations && listed)
    ensures v.server.violationCount ==
      if server.violationCount < MaxViolations && listed then MaxViolations else server.violationCount
    ensures v.server.violationCount >= server.violationCount
    ensures v.Refuse? ==> v.server.blacklisted
    ensures v.Admit? ==> (v.storeBlacklist <==> server.violationCount >= MaxViolations)
    ensures v.Admit? ==> v.server.blacklisted == v.storeBlacklist
    ensures v.server.modified <==>
      server.modified || (server.violationCount < MaxViolations && listed) || (v.Admit? && v.storeBlacklist)
    ensures v.server.(violationCount := server.violationCount, blacklisted := server.blacklisted,
                      modified := server.modified) == server
  {
    var escalate := server.violationCount < MaxViolations && listed;
    var s := if escalate then server.(violationCount := MaxViolations, blacklisted := true, modified := true) else server;
    if s.blacklisted then Refuse(s)
    else if s.violationCount >= MaxViolations then Admit(s.(blacklisted := true, modified := true), true)
    else Admit(s, false)
  }

  /** A server admitted while being blacklisted is refused on its next report, whatever the database says. */
  lemma BlacklistTakesEffectNextReport(server: Server, listed: bool, listedNext: bool)
    requires CheckViolations(server, listed).Admit? && CheckViolations(server, listed).storeBlacklist
    ensures CheckViolations(CheckViolations(server, listed).server, listedNext).Refuse?
  {
  }

  /** The threshold case: count 7, not yet blacklisted, is admitted once and blacklisted. */
  lemma ThresholdAdmitsOnce(server: Server, listed: bool)
    requires server.violationCount == MaxViolations && !server.blacklisted
    ensures var v := CheckViolations(server, listed);
      v.Admit? && v.storeBlacklist && v.server.blacklisted
  {
  }
}

=== FILE: write_plan.dfy ===
/**
  The custom-data write of `ReportHandler.handle`: one row per resolved
  column, all stamped with the same second, upserted on the key
  (server, plugin, column). The SQL text is not modelled, only the rows and
  what `ON DUPLICATE KEY UPDATE` does with them.
 */
module WritePlan {
  import opened Optional
  import opened Assoc
  import opened CustomData

  datatype DataPoint = DataPoint(server: int, plugin: int, column: ColumnId, value: int, updated: int)

  /** The rows of the `INSERT`, one per entry of the resolved data. */
  function Plan(data: Metrics, serverId: int, pluginId: int, now: int): (plan: seq<DataPoint>)
    requires DistinctKeys(data)
    ensures |plan| == |data|
    ensures forall p :: p in plan ==>
      p.server == serverId && p.plugin == pluginId && p.updated == now && Get(data, p.column) == Some(p.value)
    ensures forall c :: c in Keys(data) ==> exists p :: p in plan && p.column == c
    ensures forall i, j :: 0 <= i < j < |plan| ==> plan[i].column != plan[j].column
  {
    var plan := seq(|data|, i requires 0 <= i < |data| => DataPoint(serverId, pluginId, data[i].0, data[i].1, now));
    assert forall i :: 0 <= i < |data| ==> plan[i].column == data[i].0;
    forall p | p in plan ensures Get(data, p.column) == Some(p.value) {
      var i :| 0 <= i < |plan| && plan[i] == p;
      GetEntry(data, i);
    }
    forall c | c in Keys(data) ensures exists p :: p in plan && p.column == c {
      var i :| 0 <= i < |data| && data[i].0 == c;
      assert plan[i] in plan;
    }
    plan
  }

  datatype RowKey = RowKey(server: int, plugin: int, column: ColumnId)
  datatype Row = Row(value: int, updated: int)

  function KeyOf(p: DataPoint): RowKey {
    RowKey(p.server, p.plugin, p.column)
  }

  /** The `CustomData` table after the rows are inserted in order, a duplicate key overwriting. */
  function Upsert(table: map<RowKey, Row>, plan: seq<DataPoint>): map<RowKey, Row>
    decreases |plan|
  {
    if |plan| == 0 then table
    else
      var p := plan[|plan| - 1];
      Upsert(table, plan[..|plan| - 1])[KeyOf(p) := Row(p.value, p.updated)]
  }

  /** Upserting only adds or overwrites: the result is the table overridden by the plan's rows. */
  lemma {:induction false} UpsertOverrides(table: map<RowKey, Row>, plan: seq<DataPoint>)
    ensures Upsert(table, plan) == table + Upsert(map[], plan)
    decreases |plan|
  {
    if |plan| > 0 {
      UpsertOverrides(table, plan[..|plan| - 1]);
    }
  }

  /** Writing the same plan twice leaves the table as writing it once. */
  lemma UpsertIdempotent(table: map<RowKey, Row>, plan: seq<DataPoint>)
    ensures Upsert(Upsert(table, plan), plan) == Upsert(table, plan)
  {
    UpsertOverrides(table, plan);
    UpsertOverrides(Upsert(table, plan), plan);
    var u := Upsert(map[], plan);
    assert (table + u) + u == table + u;
  }

  /**
    For rows with distinct keys, each row's key ends up holding that row, and
    every other key keeps what the table had.
   */
  lemma {:induction false} UpsertDistinct(table: map<RowKey, Row>, plan: seq<DataPoint>)
    requires forall i, j :: 0 <= i < j < |plan| ==> KeyOf(plan[i]) != KeyOf(plan[j])
    ensures forall i :: 0 <= i < |plan| ==>
      KeyOf(plan[i]) in Upsert(table, plan) && Upsert(table, plan)[KeyOf(plan[i])] == Row(plan[i].value, plan[i].updated)
    ensures forall k :: (forall i :: 0 <= i < |plan| ==> KeyOf(plan[i]) != k) ==>
      (k in Upsert(table, plan) <==> k in table) && (k in table ==> Upsert(table, plan)[k] == table[k])
    decreases |plan|
  {
    if |plan| > 0 {
      var init := plan[..|plan| - 1];
      assert forall i :: 0 <= i < |init| ==> init[i] == plan[i];
      UpsertDistinct(table, init);
    }
  }

  /**
    Applying a plan built from resolved data stores, for each column, its
    value and `now`, and touches no other row.
   */
  lemma ApplyPlan(table: map<RowKey, Row>, data: Metrics, serverId: int, pluginId: int, now: int)
    requires DistinctKeys(data)
    ensures var t := Upsert(table, Plan(data, serverId, pluginId, now));
      && (forall c :: c in Keys(data) ==>
            RowKey(serverId, pluginId, c) in t && t[RowKey(serverId, pluginId, c)] == Row(Get(data, c).value, now))
      && (forall k :: k in table && (k.server != serverId || k.plugin != pluginId || k.column !in Keys(data)) ==>
            k in t && t[k] == table[k])
  {
    var plan := Plan(data, serverId, pluginId, now);
    assert forall i, j :: 0 <= i < j < |plan| ==> KeyOf(plan[i]) != KeyOf(plan[j]);
    UpsertDistinct(table, plan);
    PlanColumnsWritten(table, data, serverId, pluginId, now);
    PlanOthersKept(table, data, serverId, pluginId, now);
  }

  lemma PlanColumnsWritten(table: map<RowKey, Row>, data: Metrics, serverId: int, pluginId: int, now: int)
    requires DistinctKeys(data)
    requires var plan := Plan(data, serverId, pluginId, now);
      forall i :: 0 <= i < |plan| ==>
        KeyOf(plan[i]) in Upsert(table, plan) && Upsert(table, plan)[KeyOf(plan[i])] == Row(plan[i].value, plan[i].updated)
    ensures var t := Upsert(table, Plan(data, serverId, pluginId, now));
      forall c :: c in Keys(data) ==>
        RowKey(serverId, pluginId, c) in t && t[RowKey(serverId, pluginId, c)] == Row(Get(data, c).value, now)
  {
    var plan := Plan(data, serverId, pluginId, now);
    forall c | c in Keys(data)
      ensures var t := Upsert(table, plan);
        RowKey(serverId, pluginId, c) in t && t[RowKey(serverId, pluginId, c)] == Row(Get(data, c).value, now)
    {
      var p :| p in plan && p.column == c;
      var i :| 0 <= i < |plan| && plan[i] == p;
      assert KeyOf(plan[i]) == RowKey(serverId, pluginId, c);
    }
  }

  lemma PlanOthersKept(table: map<RowKey, Row>, data: Metrics, serverId: int, pluginId: int, now: int)
    requires DistinctKeys(data)
    requires var plan := Plan(data, serverId, pluginId, now);
      forall k :: (forall i :: 0 <= i < |plan| ==> KeyOf(plan[i]) != k) ==>
        (k in Upsert(table, plan) <==> k in table) && (k in table ==> Upsert(table, plan)[k] == table[k])
    ensures var t := Upsert(table, Plan(data, serverId, pluginId, now));
      forall k :: k in table && (k.server != serverId || k.plugin != pluginId || k.column !in Keys(data)) ==>
        k in t && t[k] == table[k]
  {
    var plan := Plan(data, serverId, pluginId, now);
    forall k | k in table && (k.server != serverId || k.plugin != pluginId || k.column !in Keys(data))
      ensures var t := Upsert(table, plan); k in t && t[k] == table[k]
    {
      forall i | 0 <= i < |plan| ensures KeyOf(plan[i]) != k {
        assert plan[i] in plan;
        assert plan[i].column in Keys(data);
      }
    }
  }
}
